=== FILE: README.md ===
# Chemical equipment upload and retention, modelled in Dafny

The backend of the chemical-equipment visualiser takes a CSV of equipment
rows (name, type, flowrate, pressure, temperature), stores one dataset row
with the row count and a JSON histogram of the `Type` column, stores one
record per CSV row under it, and keeps only the newest
`MAX_DATASET_HISTORY` datasets. It also registers, logs in and reports
users. The web client checks a chosen file before sending it.

This project models that logic as pure transitions over an immutable store:

- `Models` (`models.dfy`): users, datasets and records as three tables; the
  store invariant `Valid` (datasets newest first by upload time, unique ids,
  every record's dataset exists, every uploader exists); cascade deletes of
  datasets and users; the distribution field's JSON get/set.
- `Json` (`json.dfy`): `json.dumps` of a string-to-int dict with Python's
  default `ensure_ascii` escaping (surrogate pairs included) and the
  `json.loads` that reads it back, with the round trip proved.
- `Frame` (`frame.dfy`): the parsed CSV (header plus rows of cells) and
  `value_counts` of a column.
- `Views` (`views.dfy`): `upload_csv`, `maintain_dataset_history`,
  `get_history`, `get_summary`, `register_user`, `login_user`,
  `logout_user`, `current_user`.
- `UploadProperties` (`upload_properties.dfy`): what one or two uploads do to
  the store.
- `FileUpload` (`file_upload.dfy`): the web client's form state and its
  handlers.
- `Text` (`text.dfy`): Python's `str.strip`, the last-`@` split and the
  e-mail normalisation `create_user` applies.
- `Seqs`, `Assoc`, `Wrappers`: order-preserving filter, ordered dicts as
  entry lists, `Option`.

Library calls the views cannot see into are parameters. `pd.read_csv`
arrives as a `Content` value: a table, or the message of the exception it
raised. The `Orm` value gives, for a table, the exception raised while
taking the column means and inserting the dataset row. It also gives, for
a row, the exception raised while inserting that row's record. Upload
times come from a store clock that increases on every upload, so no two
datasets tie.

The upload is not atomic. `upload_csv` saves the dataset row
(backend/api/views.py:92-102) before the record loop
(backend/api/views.py:105-113), and it has no transaction. So a record
insert that raises leaves the dataset stored with only the earlier rows'
records, and the retention step is skipped. `UploadPartialFailure` states
that partial state, where the stored row count exceeds the number of
records.

Registration stores the email the way Django's `normalize_email` leaves it.
`Text.NormalizeEmail` follows `BaseUserManager.normalize_email`. It takes
`email or ""`, then applies `strip().rsplit('@', 1)` and lower-cases the
domain. An address without `@` is returned unstripped. `Text` (`text.dfy`)
models those string operations.

The web client's upload is two steps. `handleUpload` runs up to its `await`
(`StartUpload`), and the rest runs when the call settles (`SettleUpload`).
While the call is pending, only the upload button is disabled; the file
input and the drop zone still validate new choices. `Run` applies any
interleaving of these events, and `RunHolds` shows that the form never holds
a refused file. `HandleUpload` is the handler when nothing comes between
the two steps.

## Model

| member | source | states |
|---|---|---|
| Views.UploadCsv | backend/api/views.py:44-126 | checks run in order: no file gives 400 `No file provided`, then a name not ending in `.csv` gives 400 `File must be a CSV`, then an unreadable CSV or missing columns give 400; each of these leaves the store unchanged; the response is 201 exactly when every check and every library call succeeds, 400 otherwise; the store invariant is preserved |
| Views.SaveUpload | backend/api/views.py:77-126 | once the columns are present, the result is 201 exactly when neither the statistics step nor any row's record insert raises, and 400 otherwise; a statistics error leaves the store unchanged; the store invariant is preserved |
| Views.MissingColumns | backend/api/views.py:68-75 | the reported columns are exactly the required ones absent from the header, and they appear in the order of the required list |
| Views.Uploader | backend/api/views.py:93 | the uploader is the session user when that user exists, and none otherwise |
| Views.CreateRecords | backend/api/views.py:104-113 | the loop appends one record per row, in row order and with fresh ids, up to the first row whose insert raises; the records made before that row stay; it reports an error exactly when such a row exists |
| Views.CreateDatasetValid | backend/api/views.py:92-102 | putting the new dataset, stamped with the clock and the next id, in front keeps the store invariant, including newest-first order |
| Views.CreateRecordsValid | backend/api/views.py:105-113 | the created records keep the invariant: unique ids, and each record's dataset exists |
| Views.MaintainDatasetHistory | backend/api/views.py:223-231 | at or under the bound nothing changes; over it, exactly the first `max` datasets in newest-first order remain, a record remains exactly when its dataset does, and the invariant is preserved |
| Views.DeleteEachAtOnce | backend/api/views.py:229-231 | deleting the doomed datasets one at a time leaves the same store as deleting all of them together |
| Views.TrimValid | backend/api/views.py:227-231 | deleting everything past the first `max` datasets leaves exactly those first `max`, together with every record that belongs to one of them |
| Views.TrimIdempotent | backend/api/views.py:223-231 | trimming a second time changes nothing |
| Views.TrimKeepsNewest | backend/api/views.py:223-231 | with a bound of at least one, the newest dataset survives trimming |
| Views.GetHistory | backend/api/views.py:144-150 | the history is the newest-first prefix of length min(count, max) |
| Views.DefaultHistoryWindow | backend/api/views.py:144-150 | at the default bound of five, the history page and the store after retention hold at most five datasets |
| Views.HistoryShowsNewest | backend/api/views.py:148 | the history is newest first, and every dataset it leaves out is older than every one it shows |
| Views.GetSummary | backend/api/views.py:129-141 | a known id gives 200 with that dataset and its records; an unknown id gives 404 `Dataset not found` |
| Views.RegisterUser | backend/api/views.py:153-175 | a blank username or password gives 400 and a taken username gives 400, both leaving the store unchanged; otherwise exactly one user is appended with the next id, the given name and password, and the email in `normalize_email` form (empty when absent); datasets and records are untouched, and the response is 201 with that username and the normalised email |
| Views.RegisterNormalizesEmail | backend/api/views.py:166-175 | registering ` Bob@EXAMPLE.COM ` stores and returns `Bob@example.com` |
| Text.NormalizeEmail | backend/api/views.py:173 | an address without `@` is kept as given; otherwise it is stripped of Python whitespace, the part up to and including the last `@` is kept, and the rest is lower-cased |
| Text.NormalizeEmailIdempotent | backend/api/views.py:173 | normalising an already normalised address changes nothing |
| Text.NormalizeEmailExample | backend/api/views.py:173 | ` Bob@EXAMPLE.COM ` normalises to `Bob@example.com` |
| Text.StripKeepsAt | backend/api/views.py:173 | stripping keeps an `@` and adds none, so the split happens exactly when the given address has an `@` |
| Text.LastIndex | backend/api/views.py:173 | the split point is the last `@`: none exactly when there is no `@`, otherwise an index holding `@` with none after it |
| Views.Authenticate | backend/api/views.py:191 | a user is found exactly when one has this username and password |
| Views.LoginUser | backend/api/views.py:178-201 | a blank field gives 400 whatever the store holds, so no authentication is attempted; valid credentials give 200 with that user's serialised view as the body and a session for that user; wrong ones give 401 `Invalid credentials` and keep the session |
| Views.LogoutUser | backend/api/views.py:204-209 | the session ends and the response is 200 |
| Views.CurrentUser | backend/api/views.py:212-220 | 200 with the user exactly when the session's user exists, 401 `Not authenticated` otherwise |
| Frame.ValueCounts | backend/api/views.py:84 | the histogram has one key per distinct type text, each counting the rows with that type; missing types are dropped, so the counts sum to the number of rows that have a type |
| UploadProperties.UploadSucceeds | backend/api/views.py:78-120 | on success the new dataset has the next id, the file's name, the uploader, `total_count` equal to the row count and the histogram as its distribution; it goes in front and the store keeps the newest `max`; with `max` at least one the response carries one record per row, in row order, and those are the dataset's stored records |
| UploadProperties.UploadHistogram | backend/api/views.py:84-101 | the stored distribution reads back as a dict whose keys are exactly the type texts that occur and whose values are their counts; the counts sum to `total_count` when no type cell is missing |
| UploadProperties.FirstUpload | backend/api/views.py:92-120 | a successful first upload into an empty store leaves exactly that dataset, and it owns every stored record, one per CSV row |
| UploadProperties.UploadPartialFailure | backend/api/views.py:92-126 | when a record insert raises, the response is 400 with the error; the new dataset stays stored, with only the records of the rows before the failing one, fewer than its row count; the older datasets are not trimmed |
| UploadProperties.RecordsOfCreated | backend/api/views.py:105-113 | after the loop the new dataset owns exactly the records it created, since no earlier record can point at the fresh id |
| UploadProperties.TrimKeepsRecordsOf | backend/api/views.py:229-231 | a dataset that survives trimming keeps its records, in the same order |
| UploadProperties.UploadTwiceKeepsBoth | backend/api/views.py:92-116 | uploading the same file twice creates two datasets with different ids; with a bound of at least two both are kept, the second in front |
| UploadProperties.UploadGoesInFront | backend/api/views.py:92-116 | with a bound of at least two, a new upload goes in front and the previous newest dataset moves to second place |
| UploadProperties.ClientAcceptedPassesExtensionCheck | backend/api/views.py:57-61 | a file the web client keeps is never refused by the server's extension check |
| Models.RecordOwnerUnique | backend/api/models.py:37 | in a valid store every record's dataset key names exactly one stored dataset |
| Models.SetDistributionDict | backend/api/models.py:29-31 | the stored text parses back to exactly the given entries, and no other field changes |
| Models.GetDistributionDict | backend/api/models.py:25-27 | a dict comes back exactly when the stored text parses; its keys are the keys of the parsed entries, and when those are distinct each key maps to its parsed count |
| Models.DistributionRoundTrip | backend/api/models.py:25-31 | reading the distribution after setting it gives back the dict that was set, key for key and count for count, and setting it changes no other field |
| Json.LoadsDumps | backend/api/models.py:27-31 | parsing the JSON text written for a dict gives back the same entries in the same order |
| Models.DeleteDatasets | backend/api/models.py:37 | deleting datasets removes exactly those datasets and every record whose dataset is one of them; everything else stays, in order, and the invariant holds |
| Models.DeleteDataset | backend/api/models.py:37 | deleting one dataset removes it and exactly its records; other records and all users are untouched |
| Models.DeleteUser | backend/api/models.py:9 | deleting a user removes that user, the datasets they uploaded, and those datasets' records; everything else stays, and the invariant holds |
| Models.DeleteUserValid | backend/api/models.py:9 | in a valid store, the datasets the user cascade removes are exactly the ones that user uploaded |
| Seqs.EndsWithIffAppended | backend/api/views.py:57 | a name passes the suffix check exactly when it is some text followed by `.csv` |
| FileUpload.ValidateAndSetFile | web-frontend/src/components/FileUpload.js:15-31 | a file becomes the selection exactly when its name ends in `.csv` and its size is at most 10 MiB; otherwise the selection stays; the error is empty exactly when nothing was chosen or the file was kept; a wrong name is reported before a wrong size |
| FileUpload.HandleFileChange | web-frontend/src/components/FileUpload.js:10-13 | the chosen file, if any, is validated: nothing chosen clears the error; an acceptable file becomes the selection with no error; any other file leaves the selection and sets an error; the uploading flag is untouched |
| FileUpload.HandleDrop | web-frontend/src/components/FileUpload.js:43-51 | a drop without a file changes nothing; a drop with a file validates it |
| FileUpload.ClearSelection | web-frontend/src/components/FileUpload.js:129-133 | the remove button clears the selection and nothing else |
| FileUpload.HandleUpload | web-frontend/src/components/FileUpload.js:53-72 | when nothing happens while the call is pending: with no selection the error is `Please select a file first` and no upload call is made; otherwise the call is made and the form ends up not uploading; success clears the selection and the error; failure keeps the selection and shows the server's error, or the default message when the server sent none or an empty one |
| FileUpload.SizeBoundary | web-frontend/src/components/FileUpload.js:25-28 | exactly 10 MiB is accepted and one byte more is not |
| FileUpload.ExtensionBeforeSize | web-frontend/src/components/FileUpload.js:20-28 | a too-large file with the wrong name is reported for its name, and the selection stays |
| FileUpload.SelectionStaysAcceptable | web-frontend/src/components/FileUpload.js:15-31 | after any series of selections, the form holds no file or one the rule accepts |
| FileUpload.FromInitialForm | web-frontend/src/components/FileUpload.js:5-7 | starting from the empty form, no series of selections leaves a file the client would refuse |
| FileUpload.FailureMessage | web-frontend/src/components/FileUpload.js:67-68 | the failure line is never empty: the server's `error` field when it is present and non-empty, the default message otherwise |
| FileUpload.StartUpload | web-frontend/src/components/FileUpload.js:53-60 | with no selection only the error becomes `Please select a file first` and no call starts; otherwise the same file stays selected, the form is uploading with the error cleared, and the call starts |
| FileUpload.SettleUpload | web-frontend/src/components/FileUpload.js:63-71 | applied to the form as it is when the call settles: success clears the selection and keeps whatever error is shown; failure keeps whatever file is selected and shows the failure line; either way uploading ends |
| FileUpload.HandleUploadInTwoSteps | web-frontend/src/components/FileUpload.js:53-72 | the whole handler is the start step followed at once by the settle step, when a call starts |
| FileUpload.ApplyHolds | web-frontend/src/components/FileUpload.js:10-72 | no single event (file choice, drop, remove, click, settling) puts a refused file in the form |
| FileUpload.RunHolds | web-frontend/src/components/FileUpload.js:10-154 | after any interleaving of events, uploads pending or not, the form holds no file or an acceptable one |
| FileUpload.EventsFromInitialForm | web-frontend/src/components/FileUpload.js:5-154 | from the empty form, no series of events leaves a refused file |
| FileUpload.UninterruptedUpload | web-frontend/src/components/FileUpload.js:53-72 | a click with a file, followed at once by its call settling, ends where `HandleUpload` ends |
| FileUpload.DropDuringUpload | web-frontend/src/components/FileUpload.js:43-51 | a wrong file dropped while the call is pending leaves its error shown after the call succeeds, with the selection cleared |
| FileUpload.ChangeDuringFailedUpload | web-frontend/src/components/FileUpload.js:10-13 | a call that fails after the user chose another file leaves that newer file selected, not the one that was sent |

## Left out

- The three averages (`avg_flowrate`, `avg_pressure`, `avg_temperature`). They are floating-point means with NaN semantics. The dataset datatype has no such fields. The exception taking a mean can raise is kept, as `Orm.statsError`.
- The re-serialised CSV text (`csv_data`). It is pandas output and is not modelled.
- CSV parsing. The table arrives already parsed, and cells are kept as text. pandas' number typing is not modelled, and neither is its renaming of duplicate header names.
- Frame.ValueCounts: keys are kept in order of first appearance, while pandas orders them by descending count. The keys and counts are the same. A `Type` column that pandas reads as numbers would be keyed by the number's `repr` after `json.dumps`; the model keys it by the cell text.
- The value of `settings.MAX_DATASET_HISTORY`. The settings module is not part of this model. The bound is a parameter, and `MaxDatasetHistory` is 5, as the `get_history` docstring says.
- Json.Loads: it reads only the form `json.dumps` writes (", " and ": " separators, no other whitespace, non-negative integer values). A lone surrogate escape has no Dafny character, so it is rejected where Python would keep it.
- The database and ORM internals: transactions, concurrency, sessions, CSRF. Exceptions from the ORM and from pandas are the `Content` and `Orm` parameters.
- Password hashing, the `is_active` flag, and the NFKC normalisation `create_user` applies to usernames. Passwords are stored and compared as given. Non-string JSON values in the request fields are not modelled.
- Django's sanitising of uploaded file names.
- The `EquipmentDatasetViewSet` actions (backend/api/views.py:20-41), except destroy, which is `DeleteDataset`. Its list serves the whole queryset (backend/api/views.py:23) newest first, with no bound. So it is the store's `datasets`, not `GetHistory`, and after a partial upload failure it can hold more than `max` datasets. Its retrieve agrees with `GetSummary` only on the 200 path; its 404 body is the framework's `detail` message, not `Dataset not found`. Create, update and the PDF action are not modelled; PDF generation is layout.
- Record order. `EquipmentRecord` declares no `Meta.ordering` (backend/api/models.py:34-45), so the order of `dataset.records` is up to the database. The model lists records in creation order, which is also row order. `RecordsOf`, `CreateRecords`, `UploadSucceeds` and `TrimKeepsRecordsOf` state their order under that choice.
- Text.NormalizeEmail: lower-cases only the ASCII letters of the domain. Python's full Unicode `str.lower` is not modelled.
- FileUpload.HandleUpload: treats the pending `await uploadCSV(file)` as one step, so its claims hold only when no event arrives during the wait. With events in between, `StartUpload`, `SettleUpload` and `Run` give the behaviour. An error set during the wait survives success (`DropDuringUpload`), and a failure keeps the file chosen during the wait (`ChangeDuringFailedUpload`).
- Serializers beyond field projection. `UserView` carries empty first and last names.
- Rendering, the drag-highlight state, the reset of the DOM file input, and the `onUploadSuccess` callback to the parent component in the web client. The `File size must be less than 10MB` message is modelled as written, even though exactly 10 MiB is accepted.
- Timestamp ties and a wall clock that goes backwards. `auto_now_add` reads the wall clock, and the model's strictly increasing store clock assumes that it never repeats and never goes back. If it did go back, a new upload would sort behind older datasets and could be trimmed at once, which `TrimKeepsNewest` and `UploadSucceeds` rule out under this assumption.

=== FILE: assoc.dfy ===
/** A Python dict from strings to counts, kept as its list of entries in
    insertion order (Python dicts remember that order, and `json.dumps`
    writes the entries in it). */
module Assoc {

  type Entry = (string, nat)

  function KeySet(h: seq<Entry>): set<string>
  {
    set i | 0 <= i < |h| :: h[i].0
  }

  predicate DistinctKeys(h: seq<Entry>)
  {
    forall i, j :: 0 <= i < j < |h| ==> h[i].0 != h[j].0
  }

  /** `d.get(k, 0)`: the value of the first entry with key `k`. */
  function Lookup(h: seq<Entry>, k: string): nat
    decreases |h|
  {
    if |h| == 0 then 0
    else if h[0].0 == k then h[0].1
    else Lookup(h[1..], k)
  }

  /** `sum(d.values())`. */
  function Sum(h: seq<Entry>): nat
    decreases |h|
  {
    if |h| == 0 then 0 else h[0].1 + Sum(h[1..])
  }

  /** Every value is at least one, as in a histogram of occurrences. */
  predicate Positive(h: seq<Entry>)
  {
    forall i :: 0 <= i < |h| ==> h[i].1 > 0
  }

  /** `d[k] = d.get(k, 0) + 1`: a new key goes at the end. */
  function Tally(h: seq<Entry>, k: string): (r: seq<Entry>)
    ensures |r| == if k in KeySet(h) then |h| else |h| + 1
    decreases |h|
  {
    if |h| == 0 then [(k, 1)]
    else if h[0].0 == k then [(k, h[0].1 + 1)] + h[1..]
    else
      KeySetCons(h);
      [h[0]] + Tally(h[1..], k)
  }

  lemma {:induction false} TallyKeys(h: seq<Entry>, k: string)
    ensures KeySet(Tally(h, k)) == KeySet(h) + {k}
    decreases |h|
  {
    if |h| > 0 {
      var r := Tally(h, k);
      KeySetCons(h);
      KeySetCons(r);
      if h[0].0 == k {
        assert r[1..] == h[1..];
      } else {
        assert r[1..] == Tally(h[1..], k);
        TallyKeys(h[1..], k);
      }
    } else {
      KeySetCons(Tally(h, k));
    }
  }

  lemma {:induction false} TallyDistinct(h: seq<Entry>, k: string)
    requires DistinctKeys(h)
    ensures DistinctKeys(Tally(h, k))
    decreases |h|
  {
    if |h| > 0 {
      var r := Tally(h, k);
      if h[0].0 == k {
        assert forall i :: 0 < i < |r| ==> r[i] == h[i];
      } else {
        var rest := Tally(h[1..], k);
        assert DistinctKeys(h[1..]) by {
          forall i, j | 0 <= i < j < |h[1..]| ensures h[1..][i].0 != h[1..][j].0 {
            assert h[1..][i] == h[i + 1] && h[1..][j] == h[j + 1];
          }
        }
        TallyDistinct(h[1..], k);
        TallyKeys(h[1..], k);
        assert h[0].0 !in KeySet(h[1..]) by {
          forall i | 0 <= i < |h[1..]| ensures h[1..][i].0 != h[0].0 {
            assert h[1..][i] == h[i + 1];
          }
        }
        forall i, j | 0 <= i < j < |r| ensures r[i].0 != r[j].0 {
          assert r[j] == rest[j - 1];
          assert r[j].0 in KeySet(rest);
          if i > 0 {
            assert r[i] == rest[i - 1];
          }
        }
      }
    }
  }

  lemma {:induction false} TallyCounts(h: seq<Entry>, k: string)
    ensures Positive(h) ==> Positive(Tally(h, k))
    ensures Sum(Tally(h, k)) == Sum(h) + 1
    ensures Lookup(Tally(h, k), k) == Lookup(h, k) + 1
    ensures forall x :: x != k ==> Lookup(Tally(h, k), x) == Lookup(h, x)
    decreases |h|
  {
    if |h| > 0 {
      var r := Tally(h, k);
      if h[0].0 == k {
        assert r[1..] == h[1..];
        assert Positive(h) ==> Positive(r) by {
          if Positive(h) {
            assert forall i :: 0 < i < |r| ==> r[i] == h[i];
          }
        }
      } else {
        var rest := Tally(h[1..], k);
        assert r[1..] == rest;
        TallyCounts(h[1..], k);
        assert Positive(h) ==> Positive(r) by {
          if Positive(h) {
            assert forall i :: 0 <= i < |h[1..]| ==> h[1..][i] == h[i + 1];
            assert Positive(h[1..]);
            assert forall i :: 0 < i < |r| ==> r[i] == rest[i - 1];
          }
        }
      }
    }
  }

  lemma KeySetCons(h: seq<Entry>)
    requires |h| > 0
    ensures KeySet(h) == {h[0].0} + KeySet(h[1..])
  {
    forall x | x in KeySet(h) ensures x in {h[0].0} + KeySet(h[1..]) {
      var i :| 0 <= i < |h| && h[i].0 == x;
      if i > 0 {
        assert h[1..][i - 1] == h[i];
      }
    }
    forall x | x in KeySet(h[1..]) ensures x in KeySet(h) {
      var i :| 0 <= i < |h[1..]| && h[1..][i].0 == x;
      assert h[i + 1] == h[1..][i];
    }
  }

  /** `dict(pairs)`: later entries overwrite earlier ones with the same key. */
  function ToMap(h: seq<Entry>): (m: map<string, nat>)
    ensures m.Keys == KeySet(h)
    decreases |h|
  {
    if |h| == 0 then map[]
    else
      var front := h[..|h| - 1];
      assert KeySet(h) == KeySet(front) + {h[|h| - 1].0} by {
        forall x | x in KeySet(h) ensures x in KeySet(front) + {h[|h| - 1].0} {
          var i :| 0 <= i < |h| && h[i].0 == x;
          if i < |h| - 1 {
            assert front[i] == h[i];
          }
        }
      }
      ToMap(front)[h[|h| - 1].0 := h[|h| - 1].1]
  }

  /** With distinct keys, the dict built from the entries holds each entry's value. */
  lemma {:induction false} ToMapLookup(h: seq<Entry>)
    requires DistinctKeys(h)
    ensures forall k :: k in ToMap(h) ==> ToMap(h)[k] == Lookup(h, k)
    decreases |h|
  {
    if |h| > 0 {
      var front := h[..|h| - 1];
      var last := h[|h| - 1];
      assert DistinctKeys(front);
      ToMapLookup(front);
      forall k | k in ToMap(h) ensures ToMap(h)[k] == Lookup(h, k) {
        assert h == front + [last];
        LookupSnoc(front, last, k);
        if k != last.0 {
          assert k in ToMap(front);
        } else {
          assert k !in KeySet(front) by {
            forall i | 0 <= i < |front| ensures front[i].0 != k {
              assert front[i] == h[i];
            }
          }
          LookupAbsent(front, k);
        }
      }
    }
  }

  lemma {:induction false} LookupSnoc(h: seq<Entry>, e: Entry, k: string)
    ensures Lookup(h + [e], k) == if k in KeySet(h) then Lookup(h, k) else if k == e.0 then e.1 else 0
    decreases |h|
  {
    if |h| == 0 {
      assert h + [e] == [e];
    } else {
      assert (h + [e])[1..] == h[1..] + [e];
      KeySetCons(h);
      LookupSnoc(h[1..], e, k);
    }
  }

  lemma {:induction false} LookupAbsent(h: seq<Entry>, k: string)
    requires k !in KeySet(h)
    ensures Lookup(h, k) == 0
    decreases |h|
  {
    if |h| > 0 {
      KeySetCons(h);
      LookupAbsent(h[1..], k);
    }
  }
}

=== FILE: file_upload.dfy ===
/** The upload form of the web client (`FileUpload.js`): the selected file,
    whether an upload is in flight, and the error line, with the handlers
    that change them. */
module FileUpload {
  import opened Wrappers
  import opened Seqs

  /** What the browser reports of a chosen file. */
  datatype SelectedFile = SelectedFile(name: string, size: nat)

  /** The component's state hooks `file`, `uploading` and `error`. */
  datatype Form = Form(file: Option<SelectedFile>, uploading: bool, error: string)

  const MaxFileSize: nat := 10 * 1024 * 1024

  const NotCsvMessage := "Please select a CSV file"
  const TooLargeMessage := "File size must be less than 10MB"
  const NoSelectionMessage := "Please select a file first"
  const UploadFailedMessage := "Error uploading file. Please try again."

  const InitialForm := Form(None, false, "")

  /** The client's rule for a file it will keep: a `.csv` name and at most 10 MiB. */
  predicate Acceptable(f: SelectedFile)
  {
    EndsWith(f.name, ".csv") && f.size <= MaxFileSize
  }

  /** `validateAndSetFile`: the error is cleared first; nothing selected
      stops there; otherwise the name is checked before the size and the
      file is kept only when both pass. */
  function ValidateAndSetFile(form: Form, selected: Option<SelectedFile>): (r: Form)
    ensures r.uploading == form.uploading
    ensures r.file == if selected.Some? && Acceptable(selected.value) then selected else form.file
    ensures r.error == "" <==> selected.None? || Acceptable(selected.value)
    ensures selected.Some? && !EndsWith(selected.value.name, ".csv") ==> r.error == NotCsvMessage
    ensures selected.Some? && EndsWith(selected.value.name, ".csv") && selected.value.size > MaxFileSize ==>
              r.error == TooLargeMessage
  {
    var cleared := form.(error := "");
    if selected.None? then cleared
    else if !EndsWith(selected.value.name, ".csv") then cleared.(error := NotCsvMessage)
    else if selected.value.size > MaxFileSize then cleared.(error := TooLargeMessage)
    else cleared.(file := selected)
  }

  /** `handleFileChange`: the input's first file, if any, is validated. */
  function HandleFileChange(form: Form, selected: Option<SelectedFile>): (r: Form)
    ensures r.uploading == form.uploading
    ensures selected.None? ==> r == form.(error := "")
    ensures selected.Some? && Acceptable(selected.value) ==> r.file == selected && r.error == ""
    ensures selected.Some? && !Acceptable(selected.value) ==> r.file == form.file && r.error != ""
  {
    ValidateAndSetFile(form, selected)
  }

  /** `handleDrop`: only a drop that carries a file reaches the validator, so
      an empty drop leaves even the error line alone. */
  function HandleDrop(form: Form, dropped: Option<SelectedFile>): (r: Form)
    ensures dropped.None? ==> r == form
    ensures dropped.Some? ==> r == ValidateAndSetFile(form, dropped)
  {
    if dropped.Some? then ValidateAndSetFile(form, dropped) else form
  }

  /** The remove button next to a chosen file. */
  function ClearSelection(form: Form): (r: Form)
    ensures r.file.None? && r.error == form.error && r.uploading == form.uploading
  {
    form.(file := None)
  }

  /** How the `uploadCSV` call ended: it resolved, or it rejected with the
      server's `error` field if the response carried one. */
  datatype CallOutcome = Resolved | Rejected(serverError: Option<string>)

  /** The state after `handleUpload` together with whether `uploadCSV` was called. */
  datatype UploadStep = UploadStep(form: Form, called: bool)

  /** `handleUpload`: with no file it only sets an error; otherwise it calls
      the API, and the `finally` clause always clears `uploading`. */
  function HandleUpload(form: Form, outcome: CallOutcome): (r: UploadStep)
    ensures form.file.None? ==> r == UploadStep(form.(error := NoSelectionMessage), false)
    ensures form.file.Some? ==> r.called && !r.form.uploading
    ensures form.file.Some? && outcome.Resolved? ==> r.form.file.None? && r.form.error == ""
    ensures form.file.Some? && outcome.Rejected? ==> r.form.file == form.file && r.form.error != ""
    ensures form.file.Some? && outcome.Rejected? && outcome.serverError.Some? && outcome.serverError.value != "" ==>
              r.form.error == outcome.serverError.value
    ensures form.file.Some? && outcome.Rejected? && (outcome.serverError.None? || outcome.serverError.value == "") ==>
              r.form.error == UploadFailedMessage
  {
    if form.file.None? then UploadStep(form.(error := NoSelectionMessage), false)
    else
      var busy := form.(uploading := true, error := "");
      match outcome
      case Resolved => UploadStep(busy.(file := None, uploading := false), true)
      case Rejected(serverError) =>
        UploadStep(busy.(error := FailureMessage(serverError), uploading := false), true)
  }

  /** The error line `handleUpload` shows when the call rejects: the
      server's `error` field, or the default when it is absent or empty. */
  function FailureMessage(serverError: Option<string>): (m: string)
    ensures m != ""
    ensures serverError.Some? && serverError.value != "" ==> m == serverError.value
    ensures serverError.None? || serverError.value == "" ==> m == UploadFailedMessage
  {
    if serverError.Some? && serverError.value != "" then serverError.value else UploadFailedMessage
  }

  /** `handleUpload` up to its `await`: with no file only the error is set;
      otherwise the form is marked uploading with the error cleared, and the
      call to `uploadCSV` starts. */
  function StartUpload(form: Form): (r: UploadStep)
    ensures form.file.None? ==> r == UploadStep(form.(error := NoSelectionMessage), false)
    ensures form.file.Some? ==> r == UploadStep(Form(form.file, true, ""), true)
  {
    if form.file.None? then UploadStep(form.(error := NoSelectionMessage), false)
    else UploadStep(form.(uploading := true, error := ""), true)
  }

  /** `handleUpload` after its `await`: the outcome is applied to the form as
      it stands when the call settles, which the user may have changed while
      it was pending. */
  function SettleUpload(form: Form, outcome: CallOutcome): (r: Form)
    ensures !r.uploading
    ensures outcome.Resolved? ==> r.file.None? && r.error == form.error
    ensures outcome.Rejected? ==> r.file == form.file && r.error == FailureMessage(outcome.serverError)
  {
    match outcome
    case Resolved => form.(file := None, uploading := false)
    case Rejected(serverError) => form.(error := FailureMessage(serverError), uploading := false)
  }

  /** When nothing happens while the call is pending, the two halves are
      the whole handler. */
  lemma HandleUploadInTwoSteps(form: Form, outcome: CallOutcome)
    ensures var s := StartUpload(form);
      HandleUpload(form, outcome) == if s.called then UploadStep(SettleUpload(s.form, outcome), true) else s
  {
  }

  /** What can reach the component: a choice in the file input, a drop, the
      remove button, the upload button, and the settling of a pending call. */
  datatype Event =
    | FileChange(chosen: Option<SelectedFile>)
    | Drop(dropped: Option<SelectedFile>)
    | Remove
    | Click
    | Settle(outcome: CallOutcome)

  /** One event. The upload button is disabled without a file or while
      uploading, so a click then does nothing. Only a click sets `uploading`
      and only a settling clears it, so a call is pending exactly while it is
      set, and a settling without one does nothing. The file input and the
      drop zone stay live during an upload. */
  function Apply(form: Form, e: Event): Form
  {
    match e
    case FileChange(chosen) => HandleFileChange(form, chosen)
    case Drop(dropped) => HandleDrop(form, dropped)
    case Remove => ClearSelection(form)
    case Click => if form.file.None? || form.uploading then form else StartUpload(form).form
    case Settle(outcome) => if form.uploading then SettleUpload(form, outcome) else form
  }

  /** A series of events, in order. */
  function Run(form: Form, events: seq<Event>): Form
    decreases |events|
  {
    if |events| == 0 then form else Run(Apply(form, events[0]), events[1..])
  }

  /** The form holds no file, or one the client's rule accepts. */
  predicate Holds(form: Form)
  {
    form.file.None? || Acceptable(form.file.value)
  }

  /** No event puts a refused file in the form. */
  lemma ApplyHolds(form: Form, e: Event)
    requires Holds(form)
    ensures Holds(Apply(form, e))
  {
  }

  /** However the user's choices interleave with pending uploads, the form
      never holds a file the client would refuse. */
  lemma {:induction false} RunHolds(form: Form, events: seq<Event>)
    requires Holds(form)
    ensures Holds(Run(form, events))
    decreases |events|
  {
    if |events| > 0 {
      ApplyHolds(form, events[0]);
      RunHolds(Apply(form, events[0]), events[1..]);
    }
  }

  /** A click with a file followed at once by the settling of its call is
      `handleUpload` run to completion. */
  lemma UninterruptedUpload(form: Form, outcome: CallOutcome)
    requires form.file.Some? && !form.uploading
    ensures Run(form, [Click, Settle(outcome)]) == HandleUpload(form, outcome).form
  {
    var started := Apply(form, Click);
    assert started == Form(form.file, true, "");
    assert Run(form, [Click, Settle(outcome)]) == Run(started, [Settle(outcome)]);
    assert Run(started, [Settle(outcome)]) == Run(SettleUpload(started, outcome), []);
  }

  /** A wrong file dropped while the call is pending sets its error, and the
      call's success does not clear it; the selection still ends empty. */
  lemma DropDuringUpload(f: SelectedFile, g: SelectedFile)
    requires Acceptable(f) && !EndsWith(g.name, ".csv")
    ensures var r := Run(Form(Some(f), false, ""), [Click, Drop(Some(g)), Settle(Resolved)]);
      r.file.None? && r.error == NotCsvMessage && !r.uploading
  {
    var form := Form(Some(f), false, "");
    var started := Apply(form, Click);
    var dropped := Apply(started, Drop(Some(g)));
    assert dropped == Form(Some(f), true, NotCsvMessage);
    assert Run(form, [Click, Drop(Some(g)), Settle(Resolved)]) == Run(started, [Drop(Some(g)), Settle(Resolved)]);
    assert Run(started, [Drop(Some(g)), Settle(Resolved)]) == Run(dropped, [Settle(Resolved)]);
    assert Run(dropped, [Settle(Resolved)]) == Run(SettleUpload(dropped, Resolved), []);
  }

  /** A call that rejects after the user chose another file leaves that
      newer file selected, not the one that was sent. */
  lemma ChangeDuringFailedUpload(f: SelectedFile, g: SelectedFile, e: Option<string>)
    requires Acceptable(f) && Acceptable(g)
    ensures var r := Run(Form(Some(f), false, ""), [Click, FileChange(Some(g)), Settle(Rejected(e))]);
      r.file == Some(g) && r.error == FailureMessage(e) && !r.uploading
  {
    var form := Form(Some(f), false, "");
    var started := Apply(form, Click);
    var changed := Apply(started, FileChange(Some(g)));
    assert changed == Form(Some(g), true, "");
    assert Run(form, [Click, FileChange(Some(g)), Settle(Rejected(e))]) == Run(started, [FileChange(Some(g)), Settle(Rejected(e))]);
    assert Run(started, [FileChange(Some(g)), Settle(Rejected(e))]) == Run(changed, [Settle(Rejected(e))]);
    assert Run(changed, [Settle(Rejected(e))]) == Run(SettleUpload(changed, Rejected(e)), []);
  }

  /** The 10 MiB bound is inclusive. */
  lemma SizeBoundary(name: string)
    requires EndsWith(name, ".csv")
    ensures Acceptable(SelectedFile(name, 10485760))
    ensures !Acceptable(SelectedFile(name, 10485761))
  {
  }

  /** A file too large with the wrong name is reported for its name. */
  lemma ExtensionBeforeSize(form: Form, f: SelectedFile)
    requires !EndsWith(f.name, ".csv") && f.size > MaxFileSize
    ensures ValidateAndSetFile(form, Some(f)).error == NotCsvMessage
    ensures ValidateAndSetFile(form, Some(f)).file == form.file
  {
  }

  /** Whatever is chosen, the form only ever holds a file the rule accepts. */
  lemma {:induction false} SelectionStaysAcceptable(form: Form, picks: seq<Option<SelectedFile>>)
    requires Holds(form)
    ensures Holds(ValidateAll(form, picks))
    decreases |picks|
  {
    if |picks| > 0 {
      SelectionStaysAcceptable(ValidateAndSetFile(form, picks[0]), picks[1..]);
    }
  }

  /** Starting from the empty form, whatever the user picks, the form never
      holds a file the client would refuse. */
  lemma FromInitialForm(picks: seq<Option<SelectedFile>>)
    ensures Holds(ValidateAll(InitialForm, picks))
  {
    SelectionStaysAcceptable(InitialForm, picks);
  }

  /** From the empty form, no series of events, uploads included, leaves a
      file the client would refuse. */
  lemma EventsFromInitialForm(events: seq<Event>)
    ensures Holds(Run(InitialForm, events))
  {
    RunHolds(InitialForm, events);
  }

  /** A sequence of selections made through the file input. */
  function ValidateAll(form: Form, picks: seq<Option<SelectedFile>>): Form
    decreases |picks|
  {
    if |picks| == 0 then form else ValidateAll(ValidateAndSetFile(form, picks[0]), picks[1..])
  }
}

=== FILE: frame.dfy ===
/** The parsed CSV the upload works on, standing in for the pandas
    DataFrame: the column names from the header line and one row per data
    line, each row mapping column names to cells. A cell is the text of the
    field, or missing where pandas would read NaN. */
module Frame {
  import opened Assoc

  datatype Cell = Missing | Value(text: string)

  type Row = map<string, Cell>

  datatype Table = Table(columns: seq<string>, rows: seq<Row>)

  /** `row[column]`; a column the row does not hold reads as missing. */
  function Get(row: Row, column: string): Cell
  {
    if column in row then row[column] else Missing
  }

  /** Number of rows whose cell in `column` is `text`. */
  function Occurrences(rows: seq<Row>, column: string, text: string): nat
    decreases |rows|
  {
    if |rows| == 0 then 0
    else Occurrences(rows[..|rows| - 1], column, text)
         + (if Get(rows[|rows| - 1], column) == Value(text) then 1 else 0)
  }

  /** Number of rows whose cell in `column` is not missing. */
  function Present(rows: seq<Row>, column: string): nat
    decreases |rows|
  {
    if |rows| == 0 then 0
    else Present(rows[..|rows| - 1], column) + (if Get(rows[|rows| - 1], column).Missing? then 0 else 1)
  }

  /** `df[column].value_counts().to_dict()`: one entry per distinct text in
      the column, counting its rows, with missing cells dropped. Keys are in
      order of first appearance. */
  function ValueCounts(rows: seq<Row>, column: string): (h: seq<Entry>)
    ensures DistinctKeys(h)
    ensures Positive(h)
    ensures forall k :: Lookup(h, k) == Occurrences(rows, column, k)
    ensures forall k :: k in KeySet(h) <==> Occurrences(rows, column, k) > 0
    ensures Sum(h) == Present(rows, column)
    decreases |rows|
  {
    if |rows| == 0 then []
    else
      var front := ValueCounts(rows[..|rows| - 1], column);
      match Get(rows[|rows| - 1], column)
      case Missing => front
      case Value(k) =>
        TallyKeys(front, k);
        TallyDistinct(front, k);
        TallyCounts(front, k);
        forall x ensures x in KeySet(front) <==> Lookup(front, x) > 0 {
          LookupPositive(front, x);
        }
        Tally(front, k)
  }

  /** In a histogram, a key is present exactly when its count is non-zero. */
  lemma {:induction false} LookupPositive(h: seq<Entry>, k: string)
    requires Positive(h)
    ensures k in KeySet(h) <==> Lookup(h, k) > 0
    decreases |h|
  {
    if |h| > 0 {
      KeySetCons(h);
      assert Positive(h[1..]) by {
        forall i | 0 <= i < |h[1..]| ensures h[1..][i].1 > 0 {
          assert h[1..][i] == h[i + 1];
        }
      }
      LookupPositive(h[1..], k);
    }
  }

  /** With no missing cell in the column, every row is counted. */
  lemma {:induction false} PresentWhenNoneMissing(rows: seq<Row>, column: string)
    requires forall i :: 0 <= i < |rows| ==> Get(rows[i], column).Value?
    ensures Present(rows, column) == |rows|
    decreases |rows|
  {
    if |rows| > 0 {
      var front := rows[..|rows| - 1];
      assert forall i :: 0 <= i < |front| ==> front[i] == rows[i];
      PresentWhenNoneMissing(front, column);
    }
  }
}

=== FILE: json.dfy ===
/** The two JSON operations the distribution field goes through: Python's
    `json.dumps` with its default settings (ensure_ascii escaping, ", " and
    ": " separators) applied to a dict from strings to non-negative ints,
    and `json.loads` of text in that form. */
module Json {
  import opened Wrappers
  import opened Assoc

  // ---------------------------------------------------------------- encoder

  /** Lower-case hexadecimal digit, as `'{0:04x}'.format` writes it. */
  function HexDigit(n: nat): char
    requires n < 16
  {
    if n < 10 then ('0' as int + n) as char else ('a' as int + n - 10) as char
  }

  function Hex4(n: nat): string
    requires n < 0x10000
  {
    var q1 := n / 16;
    var q2 := q1 / 16;
    [HexDigit(q2 / 16), HexDigit(q2 % 16), HexDigit(q1 % 16), HexDigit(n % 16)]
  }

  /** How ensure_ascii writes one character: the two-character escapes for
      quote, backslash and the five named controls, the character itself when
      it is printable ASCII, `\uXXXX` otherwise, and a UTF-16 surrogate pair of
      escapes above the Basic Multilingual Plane. */
  function EscapeChar(c: char): string
  {
    if c == '"' then "\\\""
    else if c == '\\' then "\\\\"
    else if c == '\n' then "\\n"
    else if c == '\r' then "\\r"
    else if c == '\t' then "\\t"
    else if c == '\U{8}' then "\\b"
    else if c == '\U{C}' then "\\f"
    else if ' ' <= c <= '~' then [c]
    else if (c as int) < 0x10000 then "\\u" + Hex4(c as int)
    else
      var n := c as int - 0x10000;
      "\\u" + Hex4(0xD800 + n / 0x400) + "\\u" + Hex4(0xDC00 + n % 0x400)
  }

  function EscapeAll(s: string): string
    decreases |s|
  {
    if |s| == 0 then "" else EscapeChar(s[0]) + EscapeAll(s[1..])
  }

  function EncodeString(s: string): string
  {
    "\"" + EscapeAll(s) + "\""
  }

  function DigitChar(d: nat): char
    requires d < 10
  {
    ('0' as int + d) as char
  }

  /** `repr` of a non-negative int. */
  function Decimal(n: nat): string
    decreases n
  {
    if n < 10 then [DigitChar(n)] else Decimal(n / 10) + [DigitChar(n % 10)]
  }

  function EncodeEntry(e: Entry): string
  {
    EncodeString(e.0) + ": " + Decimal(e.1)
  }

  function EncodeMembers(h: seq<Entry>): string
    requires |h| > 0
    decreases |h|
  {
    if |h| == 1 then EncodeEntry(h[0]) else EncodeEntry(h[0]) + ", " + EncodeMembers(h[1..])
  }

  /** `json.dumps(d)` for a dict whose entries, in order, are `h`. */
  function Dumps(h: seq<Entry>): string
  {
    if |h| == 0 then "{}" else "{" + EncodeMembers(h) + "}"
  }

  // ---------------------------------------------------------------- decoder

  function HexValue(c: char): (r: Option<nat>)
    ensures r.Some? ==> r.value < 16
  {
    if '0' <= c <= '9' then Some(c as int - '0' as int)
    else if 'a' <= c <= 'f' then Some(c as int - 'a' as int + 10)
    else if 'A' <= c <= 'F' then Some(c as int - 'A' as int + 10)
    else None
  }

  /** The four hexadecimal digits at the front of `s`. */
  function ParseHex4(s: string): (r: Option<nat>)
    ensures r.Some? ==> |s| >= 4 && r.value < 0x10000
  {
    if |s| < 4 then None
    else match (HexValue(s[0]), HexValue(s[1]), HexValue(s[2]), HexValue(s[3]))
      case (Some(a), Some(b), Some(c), Some(d)) => Some(a * 0x1000 + b * 0x100 + c * 0x10 + d)
      case _ => None
  }

  /** The character a one-letter escape stands for. */
  function SimpleEscape(c: char): Option<char>
  {
    if c == '"' then Some('"')
    else if c == '\\' then Some('\\')
    else if c == '/' then Some('/')
    else if c == 'b' then Some('\U{8}')
    else if c == 'f' then Some('\U{C}')
    else if c == 'n' then Some('\n')
    else if c == 'r' then Some('\r')
    else if c == 't' then Some('\t')
    else None
  }

  function Prepend(c: char, r: Option<(string, string)>): Option<(string, string)>
  {
    match r
    case None => None
    case Some((x, rest)) => Some(([c] + x, rest))
  }

  /** The body of a JSON string up to and including its closing quote, as
      the strict scanner reads it: the decoded text and what follows. A
      surrogate escape that does not form a pair has no counterpart among
      the characters of this model and is rejected. */
  function ScanString(s: string): (r: Option<(string, string)>)
    ensures r.Some? ==> |r.value.1| < |s|
    decreases |s|
  {
    if |s| == 0 then None
    else if s[0] == '"' then Some(("", s[1..]))
    else if s[0] == '\\' then
      if |s| < 2 then None
      else if s[1] == 'u' then
        match ParseHex4(s[2..])
        case None => None
        case Some(u) =>
          if 0xD800 <= u <= 0xDBFF then
            if |s| >= 8 && s[6] == '\\' && s[7] == 'u' then
              match ParseHex4(s[8..])
              case None => None
              case Some(u2) =>
                if 0xDC00 <= u2 <= 0xDFFF then
                  Prepend((0x10000 + (u - 0xD800) * 0x400 + (u2 - 0xDC00)) as char, ScanString(s[12..]))
                else None
            else None
          else if 0xDC00 <= u <= 0xDFFF then None
          else Prepend(u as char, ScanString(s[6..]))
      else
        match SimpleEscape(s[1])
        case None => None
        case Some(c) => Prepend(c, ScanString(s[2..]))
    else if (s[0] as int) < 0x20 then None
    else Prepend(s[0], ScanString(s[1..]))
  }

  predicate IsDigit(c: char)
  {
    '0' <= c <= '9'
  }

  /** Length of the run of digits at the front of `s`. */
  function DigitSpan(s: string): (k: nat)
    ensures k <= |s|
    decreases |s|
  {
    if |s| > 0 && IsDigit(s[0]) then 1 + DigitSpan(s[1..]) else 0
  }

  function DigitsValue(d: string): nat
    decreases |d|
  {
    if |d| == 0 then 0
    else
      var c := d[|d| - 1];
      DigitsValue(d[..|d| - 1]) * 10 + (if IsDigit(c) then c as int - '0' as int else 0)
  }

  /** A JSON integer without sign: `0`, or a non-zero digit and more digits. */
  function ParseNat(s: string): (r: Option<(nat, string)>)
    ensures r.Some? ==> |r.value.1| < |s|
  {
    if |s| == 0 || !IsDigit(s[0]) then None
    else if s[0] == '0' then Some((0, s[1..]))
    else
      var k := DigitSpan(s);
      Some((DigitsValue(s[..k]), s[k..]))
  }

  function ParseEntry(s: string): (r: Option<(Entry, string)>)
    ensures r.Some? ==> |r.value.1| < |s|
  {
    if |s| == 0 || s[0] != '"' then None
    else match ScanString(s[1..])
      case None => None
      case Some((k, rest)) =>
        if |rest| >= 2 && rest[..2] == ": " then
          match ParseNat(rest[2..])
          case None => None
          case Some((v, rest')) => Some(((k, v), rest'))
        else None
  }

  function ParseMembers(s: string): (r: Option<(seq<Entry>, string)>)
    decreases |s|
  {
    match ParseEntry(s)
    case None => None
    case Some((e, rest)) =>
      if |rest| >= 1 && rest[0] == '}' then Some(([e], rest[1..]))
      else if |rest| >= 2 && rest[..2] == ", " then
        match ParseMembers(rest[2..])
        case None => None
        case Some((es, rest')) => Some(([e] + es, rest'))
      else None
  }

  /** `json.loads(s)` for the text of an object of non-negative ints, as its
      list of entries in document order; `None` where it would raise. */
  function Loads(s: string): Option<seq<Entry>>
  {
    if s == "{}" then Some([])
    else if |s| >= 1 && s[0] == '{' then
      match ParseMembers(s[1..])
      case None => None
      case Some((es, rest)) => if rest == "" then Some(es) else None
    else None
  }

  // ---------------------------------------------------------------- round trip

  lemma HexDigitValue(d: nat)
    requires d < 16
    ensures HexValue(HexDigit(d)) == Some(d)
  {
  }

  lemma Hex4RoundTrip(n: nat, t: string)
    requires n < 0x10000
    ensures ParseHex4(Hex4(n) + t) == Some(n)
  {
    var s := Hex4(n) + t;
    var q1 := n / 16;
    var q2 := q1 / 16;
    HexDigitValue(q2 / 16);
    HexDigitValue(q2 % 16);
    HexDigitValue(q1 % 16);
    HexDigitValue(n % 16);
    assert s[0] == HexDigit(q2 / 16) && s[1] == HexDigit(q2 % 16) && s[2] == HexDigit(q1 % 16) && s[3] == HexDigit(n % 16);
    assert n == 16 * q1 + n % 16;
    assert q1 == 16 * q2 + q1 % 16;
    assert q2 == 16 * (q2 / 16) + q2 % 16;
  }

  lemma EscapeNamedRoundTrip(c: char, t: string)
    requires c == '"' || c == '\\' || c == '\n' || c == '\r' || c == '\t' || c == '\U{8}' || c == '\U{C}'
    ensures ScanString(EscapeChar(c) + t) == Prepend(c, ScanString(t))
  {
    var s := EscapeChar(c) + t;
    assert |EscapeChar(c)| == 2 && EscapeChar(c)[0] == '\\';
    assert s[0] == '\\' && s[1] == EscapeChar(c)[1] && s[2..] == t;
  }

  lemma EscapeBmpRoundTrip(c: char, t: string)
    requires (c as int) < 0x10000 && !(' ' <= c <= '~')
    requires !(c == '"' || c == '\\' || c == '\n' || c == '\r' || c == '\t' || c == '\U{8}' || c == '\U{C}')
    ensures ScanString(EscapeChar(c) + t) == Prepend(c, ScanString(t))
  {
    var s := EscapeChar(c) + t;
    assert s == "\\u" + (Hex4(c as int) + t);
    assert s[2..] == Hex4(c as int) + t;
    Hex4RoundTrip(c as int, t);
    assert s[6..] == t;
  }

  /** The surrogate pair ensure_ascii writes for `c` decodes back to `c`. */
  lemma SurrogatePair(c: char) returns (hi: nat, lo: nat)
    requires (c as int) >= 0x10000
    ensures hi == 0xD800 + (c as int - 0x10000) / 0x400 && lo == 0xDC00 + (c as int - 0x10000) % 0x400
    ensures 0xD800 <= hi <= 0xDBFF && 0xDC00 <= lo <= 0xDFFF
    ensures 0x10000 + (hi - 0xD800) * 0x400 + (lo - 0xDC00) == c as int
  {
    var n := c as int - 0x10000;
    hi, lo := 0xD800 + n / 0x400, 0xDC00 + n % 0x400;
    assert n == 0x400 * (n / 0x400) + n % 0x400;
  }

  lemma ScanSurrogateEscapes(hi: nat, lo: nat, t: string)
    requires 0xD800 <= hi <= 0xDBFF && 0xDC00 <= lo <= 0xDFFF
    ensures ScanString("\\u" + Hex4(hi) + "\\u" + Hex4(lo) + t)
         == Prepend((0x10000 + (hi - 0xD800) * 0x400 + (lo - 0xDC00)) as char, ScanString(t))
  {
    Hex4RoundTrip(hi, "\\u" + Hex4(lo) + t);
    Hex4RoundTrip(lo, t);
    PairLayout(Hex4(hi), Hex4(lo), t);
  }

  /** Where the pieces of two `\uXXXX` escapes sit in front of the rest of the text. */
  lemma PairLayout(a: string, b: string, t: string)
    requires |a| == 4 && |b| == 4
    ensures var s := "\\u" + a + "\\u" + b + t;
      && |s| >= 12 && s[0] == '\\' && s[1] == 'u' && s[6] == '\\' && s[7] == 'u'
      && s[2..] == a + ("\\u" + b + t) && s[8..] == b + t && s[12..] == t
  {
    var s := "\\u" + a + "\\u" + b + t;
    assert s == "\\u" + (a + ("\\u" + b + t));
    assert s[8..] == b + t;
  }

  lemma EscapeAstralRoundTrip(c: char, t: string)
    requires (c as int) >= 0x10000
    ensures ScanString(EscapeChar(c) + t) == Prepend(c, ScanString(t))
  {
    var hi, lo := SurrogatePair(c);
    assert EscapeChar(c) == "\\u" + Hex4(hi) + "\\u" + Hex4(lo);
    ScanSurrogateEscapes(hi, lo, t);
  }

  lemma EscapeCharRoundTrip(c: char, t: string)
    ensures ScanString(EscapeChar(c) + t) == Prepend(c, ScanString(t))
  {
    if c == '"' || c == '\\' || c == '\n' || c == '\r' || c == '\t' || c == '\U{8}' || c == '\U{C}' {
      EscapeNamedRoundTrip(c, t);
    } else if ' ' <= c <= '~' {
      var s := EscapeChar(c) + t;
      assert s[0] == c && s[1..] == t;
    } else if (c as int) < 0x10000 {
      EscapeBmpRoundTrip(c, t);
    } else {
      EscapeAstralRoundTrip(c, t);
    }
  }

  lemma {:induction false} ScanStringRoundTrip(s: string, t: string)
    ensures ScanString(EscapeAll(s) + "\"" + t) == Some((s, t))
    decreases |s|
  {
    if |s| == 0 {
      assert EscapeAll(s) + "\"" + t == "\"" + t;
    } else {
      assert EscapeAll(s) + "\"" + t == EscapeChar(s[0]) + (EscapeAll(s[1..]) + "\"" + t);
      EscapeCharRoundTrip(s[0], EscapeAll(s[1..]) + "\"" + t);
      ScanStringRoundTrip(s[1..], t);
      assert [s[0]] + s[1..] == s;
    }
  }

  lemma {:induction false} DecimalDigits(n: nat)
    ensures |Decimal(n)| > 0
    ensures forall i :: 0 <= i < |Decimal(n)| ==> IsDigit(Decimal(n)[i])
    ensures Decimal(n)[0] == '0' <==> n == 0
    ensures DigitsValue(Decimal(n)) == n
    decreases n
  {
    if n >= 10 {
      DecimalDigits(n / 10);
      var d := Decimal(n);
      assert d[..|d| - 1] == Decimal(n / 10);
    }
  }

  lemma {:induction false} DigitSpanOfDigits(d: string, t: string)
    requires forall i :: 0 <= i < |d| ==> IsDigit(d[i])
    requires |t| == 0 || !IsDigit(t[0])
    ensures DigitSpan(d + t) == |d|
    decreases |d|
  {
    if |d| == 0 {
      assert d + t == t;
    } else {
      assert (d + t)[1..] == d[1..] + t;
      DigitSpanOfDigits(d[1..], t);
    }
  }

  lemma DecimalRoundTrip(n: nat, t: string)
    requires |t| == 0 || !IsDigit(t[0])
    ensures ParseNat(Decimal(n) + t) == Some((n, t))
  {
    var s := Decimal(n) + t;
    DecimalDigits(n);
    if n > 0 {
      DigitSpanOfDigits(Decimal(n), t);
      assert s[..|Decimal(n)|] == Decimal(n);
      assert s[|Decimal(n)|..] == t;
    } else {
      assert s[1..] == t;
    }
  }

  lemma EntryRoundTrip(e: Entry, t: string)
    requires |t| == 0 || !IsDigit(t[0])
    ensures ParseEntry(EncodeEntry(e) + t) == Some((e, t))
  {
    var tail := ": " + (Decimal(e.1) + t);
    var body := EscapeAll(e.0) + "\"" + tail;
    assert EncodeEntry(e) + t == "\"" + EscapeAll(e.0) + "\"" + ": " + Decimal(e.1) + t;
    EntryLayout(EscapeAll(e.0), Decimal(e.1), t);
    SplitAfter("\"", body);
    ScanStringRoundTrip(e.0, tail);
    SplitAfter(": ", Decimal(e.1) + t);
    DecimalRoundTrip(e.1, t);
    ParseEntryOf("\"" + body, e.0, tail, e.1, t);
  }

  lemma EntryLayout(k: string, n: string, t: string)
    ensures "\"" + k + "\"" + ": " + n + t == "\"" + (k + "\"" + (": " + (n + t)))
  {
  }

  /** One step of `ParseEntry`: a quoted key, the `": "` separator and a number. */
  lemma ParseEntryOf(s: string, k: string, rest: string, v: nat, rest': string)
    requires |s| > 0 && s[0] == '"' && ScanString(s[1..]) == Some((k, rest))
    requires |rest| >= 2 && rest[..2] == ": " && ParseNat(rest[2..]) == Some((v, rest'))
    ensures ParseEntry(s) == Some(((k, v), rest'))
  {
  }

  lemma {:induction false} MembersRoundTrip(h: seq<Entry>, t: string)
    requires |h| > 0
    ensures ParseMembers(EncodeMembers(h) + "}" + t) == Some((h, t))
    decreases |h|
  {
    if |h| == 1 {
      LastMemberRoundTrip(h, t);
    } else {
      var rest := EncodeMembers(h[1..]) + "}" + t;
      MembersRoundTrip(h[1..], t);
      EncodeMembersCons(h, t);
      NextMemberRoundTrip(h, t, rest);
    }
  }

  lemma EncodeMembersCons(h: seq<Entry>, t: string)
    requires |h| > 1
    ensures EncodeMembers(h) + "}" + t == EncodeEntry(h[0]) + (", " + (EncodeMembers(h[1..]) + "}" + t))
  {
    assert EncodeMembers(h) == EncodeEntry(h[0]) + ", " + EncodeMembers(h[1..]);
    Regroup(EncodeEntry(h[0]), ", ", EncodeMembers(h[1..]), "}", t);
  }

  lemma Regroup(a: string, b: string, c: string, d: string, e: string)
    ensures a + b + c + d + e == a + (b + (c + d + e))
  {
  }

  lemma LastMemberRoundTrip(h: seq<Entry>, t: string)
    requires |h| == 1
    ensures ParseMembers(EncodeMembers(h) + "}" + t) == Some((h, t))
  {
    assert EncodeMembers(h) + "}" + t == EncodeEntry(h[0]) + ("}" + t);
    SplitAfter("}", t);
    EntryRoundTrip(h[0], "}" + t);
    ParseLastMember(EncodeEntry(h[0]) + ("}" + t), h[0], "}" + t);
    assert [h[0]] == h;
  }

  lemma NextMemberRoundTrip(h: seq<Entry>, t: string, rest: string)
    requires |h| > 1
    requires ParseMembers(rest) == Some((h[1..], t))
    ensures ParseMembers(EncodeEntry(h[0]) + (", " + rest)) == Some((h, t))
  {
    SplitAfter(", ", rest);
    EntryRoundTrip(h[0], ", " + rest);
    ParseNextMember(EncodeEntry(h[0]) + (", " + rest), h[0], ", " + rest, h[1..], t);
    assert [h[0]] + h[1..] == h;
  }

  /** Where a literal separator ends in front of the rest of the text. */
  lemma SplitAfter(sep: string, rest: string)
    requires |sep| > 0
    ensures (sep + rest)[0] == sep[0]
    ensures (sep + rest)[..|sep|] == sep && (sep + rest)[|sep|..] == rest
  {
  }

  /** One step of `ParseMembers`: an entry followed by the closing brace. */
  lemma ParseLastMember(s: string, e: Entry, rest: string)
    requires ParseEntry(s) == Some((e, rest)) && |rest| >= 1 && rest[0] == '}'
    ensures ParseMembers(s) == Some(([e], rest[1..]))
  {
  }

  /** One step of `ParseMembers`: an entry, a separator, and more members. */
  lemma ParseNextMember(s: string, e: Entry, rest: string, es: seq<Entry>, rest': string)
    requires ParseEntry(s) == Some((e, rest)) && |rest| >= 2 && rest[..2] == ", "
    requires ParseMembers(rest[2..]) == Some((es, rest'))
    ensures ParseMembers(s) == Some(([e] + es, rest'))
  {
    assert rest[0] == ',';
  }

  /** Reading back what `json.dumps` wrote gives the same entries in the same order. */
  lemma LoadsDumps(h: seq<Entry>)
    ensures Loads(Dumps(h)) == Some(h)
  {
    if |h| > 0 {
      var body := EncodeMembers(h) + "}";
      MembersRoundTrip(h, "");
      assert EncodeMembers(h) + "}" + "" == body;
      assert EncodeMembers(h)[0] == '"' by {
        assert EncodeEntry(h[0])[0] == '"';
      }
      assert Dumps(h) == "{" + body;
      LoadsBraced(body, h);
    }
  }

  /** `Loads` of an opening brace followed by members that end the text. */
  lemma LoadsBraced(body: string, h: seq<Entry>)
    requires |body| > 0 && body[0] == '"' && ParseMembers(body) == Some((h, ""))
    ensures Loads("{" + body) == Some(h)
  {
    var s := "{" + body;
    assert s[0] == '{' && s[1..] == body;
    assert s != "{}" by {
      assert s[1] == '"';
    }
  }
}

=== FILE: models.dfy ===
/** The three tables of the backend (`backend/api/models.py` plus Django's
    user table) as one immutable store, with the rules the ORM enforces:
    datasets come out newest first, a record's dataset is a required foreign
    key, a dataset's uploader is an optional one, and both cascade on
    delete. */
module Models {
  import opened Wrappers
  import opened Seqs
  import opened Assoc
  import opened Json
  import opened Frame

  /** A row of Django's user table, with the password kept as given (the
      hashing is not modelled). */
  datatype User = User(id: nat, username: string, password: string, email: string)

  /** `EquipmentDataset` without the three averages and the re-serialised
      CSV text; `distribution` is the JSON text of the type histogram. */
  datatype Dataset = Dataset(
    id: nat,
    uploadedBy: Option<nat>,
    uploadedAt: nat,
    filename: string,
    totalCount: nat,
    distribution: string)

  /** `EquipmentRecord`: one CSV row, owned by the dataset `dataset`. */
  datatype Record = Record(
    id: nat,
    dataset: nat,
    name: Cell,
    kind: Cell,
    flowrate: Cell,
    pressure: Cell,
    temperature: Cell)

  /** The database. `datasets` is the default queryset, i.e. in the
      `-uploaded_at` order of the model's Meta; `records` is in insertion
      order; the counters are the next primary keys and `clock` the time the
      next upload is stamped with. */
  datatype Store = Store(
    users: seq<User>,
    datasets: seq<Dataset>,
    records: seq<Record>,
    nextUserId: nat,
    nextDatasetId: nat,
    nextRecordId: nat,
    clock: nat)

  function UserIds(users: seq<User>): set<nat>
  {
    set u | u in users :: u.id
  }

  function DatasetIds(datasets: seq<Dataset>): set<nat>
  {
    set d | d in datasets :: d.id
  }

  /** Strictly decreasing upload times: the order `ordering = ['-uploaded_at']` gives. */
  predicate NewestFirst(datasets: seq<Dataset>)
  {
    Pairwise(datasets, (a: Dataset, b: Dataset) => a.uploadedAt > b.uploadedAt)
  }

  predicate UniqueDatasetIds(datasets: seq<Dataset>)
  {
    Pairwise(datasets, (a: Dataset, b: Dataset) => a.id != b.id)
  }

  predicate UniqueRecordIds(records: seq<Record>)
  {
    Pairwise(records, (a: Record, b: Record) => a.id != b.id)
  }

  predicate UniqueUsers(users: seq<User>)
  {
    Pairwise(users, (a: User, b: User) => a.id != b.id && a.username != b.username)
  }

  /** What the schema and the ORM guarantee of every reachable database. */
  predicate Valid(s: Store)
  {
    && NewestFirst(s.datasets)
    && UniqueDatasetIds(s.datasets)
    && UniqueRecordIds(s.records)
    && UniqueUsers(s.users)
    && (forall u :: u in s.users ==> u.id < s.nextUserId)
    && (forall d :: d in s.datasets ==> d.id < s.nextDatasetId && d.uploadedAt < s.clock)
    && (forall d :: d in s.datasets && d.uploadedBy.Some? ==> d.uploadedBy.value in UserIds(s.users))
    && (forall x :: x in s.records ==> x.id < s.nextRecordId && x.dataset in DatasetIds(s.datasets))
  }

  function EmptyStore(): (s: Store)
    ensures Valid(s)
  {
    Store([], [], [], 0, 0, 0, 0)
  }

  /** Because dataset ids are unique, the required foreign key of a record
      names exactly one stored dataset. */
  lemma RecordOwnerUnique(s: Store, x: Record)
    requires Valid(s) && x in s.records
    ensures exists i :: 0 <= i < |s.datasets| && s.datasets[i].id == x.dataset
    ensures forall i, j ::
              (0 <= i < |s.datasets| && 0 <= j < |s.datasets| &&
               s.datasets[i].id == x.dataset && s.datasets[j].id == x.dataset) ==> i == j
  {
    var d :| d in s.datasets && d.id == x.dataset;
    var i :| 0 <= i < |s.datasets| && s.datasets[i] == d;
    forall i, j | 0 <= i < |s.datasets| && 0 <= j < |s.datasets|
      && s.datasets[i].id == x.dataset && s.datasets[j].id == x.dataset
      ensures i == j
    {
      SameIdSameIndex(s.datasets, i, j);
    }
  }

  lemma SameIdSameIndex(datasets: seq<Dataset>, i: nat, j: nat)
    requires UniqueDatasetIds(datasets) && i < |datasets| && j < |datasets|
    requires datasets[i].id == datasets[j].id
    ensures i == j
  {
  }

  /** `set_distribution_dict`: store the dict as its JSON text. */
  function SetDistributionDict(d: Dataset, h: seq<Entry>): (r: Dataset)
    ensures Loads(r.distribution) == Some(h)
    ensures r.(distribution := d.distribution) == d
  {
    LoadsDumps(h);
    d.(distribution := Dumps(h))
  }

  /** `get_distribution_dict`: parse the JSON text back into a dict;
      `None` where `json.loads` would raise. */
  function GetDistributionDict(d: Dataset): (r: Option<map<string, nat>>)
    ensures r.Some? <==> Loads(d.distribution).Some?
    ensures r.Some? ==> r.value.Keys == KeySet(Loads(d.distribution).value)
    ensures r.Some? && DistinctKeys(Loads(d.distribution).value) ==>
              forall k :: k in r.value ==> r.value[k] == Lookup(Loads(d.distribution).value, k)
  {
    match Loads(d.distribution)
    case None => None
    case Some(entries) =>
      if DistinctKeys(entries) then ToMapLookup(entries); Some(ToMap(entries))
      else Some(ToMap(entries))
  }

  /** Reading the distribution back gives the dict that was stored, key for
      key and count for count, and setting it touches no other field. */
  lemma DistributionRoundTrip(d: Dataset, h: seq<Entry>)
    requires DistinctKeys(h)
    ensures GetDistributionDict(SetDistributionDict(d, h)).Some?
    ensures GetDistributionDict(SetDistributionDict(d, h)).value.Keys == KeySet(h)
    ensures forall k :: k in KeySet(h) ==> GetDistributionDict(SetDistributionDict(d, h)).value[k] == Lookup(h, k)
    ensures SetDistributionDict(d, h).(distribution := d.distribution) == d
  {
    LoadsDumps(h);
    ToMapLookup(h);
  }

  /** The records whose foreign key is `id` (`dataset.records`), in the
      order they were created. */
  function RecordsOf(s: Store, id: nat): seq<Record>
  {
    Filter(s.records, OwnedBy(id))
  }

  function OwnedBy(id: nat): Record -> bool
  {
    (x: Record) => x.dataset == id
  }

  /** The filters of a cascade delete: what survives deleting the datasets `ids`. */
  function KeepDataset(ids: set<nat>): Dataset -> bool
  {
    (d: Dataset) => d.id !in ids
  }

  function KeepRecord(ids: set<nat>): Record -> bool
  {
    (x: Record) => x.dataset !in ids
  }

  /** Deleting the datasets with the given ids, which cascades to every
      record whose foreign key is one of them. */
  function DeleteDatasets(s: Store, ids: set<nat>): (r: Store)
    ensures r.users == s.users && r.nextUserId == s.nextUserId && r.nextDatasetId == s.nextDatasetId
    ensures r.nextRecordId == s.nextRecordId && r.clock == s.clock
    ensures forall d :: d in r.datasets <==> d in s.datasets && d.id !in ids
    ensures forall x :: x in r.records <==> x in s.records && x.dataset !in ids
    ensures Subseq(r.datasets, s.datasets) && Subseq(r.records, s.records)
    ensures Valid(s) ==> Valid(r)
  {
    var r := s.(datasets := Filter(s.datasets, KeepDataset(ids)),
                records := Filter(s.records, KeepRecord(ids)));
    DeleteDatasetsValid(s, ids, r);
    r
  }

  lemma DeleteDatasetsValid(s: Store, ids: set<nat>, r: Store)
    requires r == s.(datasets := Filter(s.datasets, KeepDataset(ids)), records := Filter(s.records, KeepRecord(ids)))
    ensures Valid(s) ==> Valid(r)
  {
    if Valid(s) {
      FilterPairwise(s.datasets, KeepDataset(ids), (a: Dataset, b: Dataset) => a.uploadedAt > b.uploadedAt);
      FilterPairwise(s.datasets, KeepDataset(ids), (a: Dataset, b: Dataset) => a.id != b.id);
      FilterPairwise(s.records, KeepRecord(ids), (a: Record, b: Record) => a.id != b.id);
      forall x | x in r.records ensures x.dataset in DatasetIds(r.datasets) {
        var d :| d in s.datasets && d.id == x.dataset;
        assert d in r.datasets;
      }
    }
  }

  /** `dataset.delete()`. */
  function DeleteDataset(s: Store, id: nat): (r: Store)
    ensures forall d :: d in r.datasets <==> d in s.datasets && d.id != id
    ensures forall x :: x in r.records <==> x in s.records && x.dataset != id
    ensures r.users == s.users
    ensures Valid(s) ==> Valid(r)
  {
    DeleteDatasets(s, {id})
  }

  /** Ids of the datasets `uid` uploaded. */
  function UploadsOf(s: Store, uid: nat): set<nat>
  {
    set d | d in s.datasets && d.uploadedBy == Some(uid) :: d.id
  }

  /** Deleting a user: the `uploaded_by` cascade deletes the datasets they
      uploaded, and through those every record of those datasets. */
  function DeleteUser(s: Store, uid: nat): (r: Store)
    ensures forall u :: u in r.users <==> u in s.users && u.id != uid
    ensures Valid(s) ==> forall d :: d in r.datasets <==> d in s.datasets && d.uploadedBy != Some(uid)
    ensures forall x :: x in r.records <==> x in s.records && x.dataset !in UploadsOf(s, uid)
    ensures Valid(s) ==> Valid(r)
  {
    var gone := UploadsOf(s, uid);
    var t := DeleteDatasets(s, gone);
    var r := t.(users := Filter(t.users, (u: User) => u.id != uid));
    DeleteUserValid(s, uid, r);
    r
  }

  lemma DeleteUserValid(s: Store, uid: nat, r: Store)
    requires r == DeleteDatasets(s, UploadsOf(s, uid)).(users := Filter(s.users, (u: User) => u.id != uid))
    ensures Valid(s) ==> forall d :: d in r.datasets <==> d in s.datasets && d.uploadedBy != Some(uid)
    ensures Valid(s) ==> Valid(r)
  {
    var gone := UploadsOf(s, uid);
    if Valid(s) {
      forall d | d in s.datasets ensures d.id in gone <==> d.uploadedBy == Some(uid) {
        if d.id in gone {
          var e :| e in s.datasets && e.uploadedBy == Some(uid) && e.id == d.id;
          SameIdSameDataset(s.datasets, d, e);
        }
      }
      FilterPairwise(s.users, (u: User) => u.id != uid, (a: User, b: User) => a.id != b.id && a.username != b.username);
      forall d | d in r.datasets && d.uploadedBy.Some? ensures d.uploadedBy.value in UserIds(r.users) {
        var u :| u in s.users && u.id == d.uploadedBy.value;
        assert u in r.users;
      }
    }
  }

  lemma SameIdSameDataset(datasets: seq<Dataset>, d: Dataset, e: Dataset)
    requires UniqueDatasetIds(datasets) && d in datasets && e in datasets && d.id == e.id
    ensures d == e
  {
    var i :| 0 <= i < |datasets| && datasets[i] == d;
    var j :| 0 <= j < |datasets| && datasets[j] == e;
    SameIdSameIndex(datasets, i, j);
  }
}

=== FILE: seqs.dfy ===
/** Sequence helpers shared by the model: order-preserving filtering, the
    subsequence relation it establishes, string suffixes and joining. */
module Seqs {

  /** `a` is `b` with some elements dropped and the rest kept in order. */
  predicate Subseq<T(==)>(a: seq<T>, b: seq<T>)
    decreases |b|
  {
    if |a| == 0 then true
    else if |b| == 0 then false
    else if a[0] == b[0] then Subseq(a[1..], b[1..])
    else Subseq(a, b[1..])
  }

  /** The elements of `s` that satisfy `p`, in their original order (a list
      comprehension, or the queryset `.filter` / `.exclude` of the ORM). */
  function Filter<T(==,!new)>(s: seq<T>, p: T -> bool): (r: seq<T>)
    ensures forall x :: x in r <==> x in s && p(x)
    ensures Subseq(r, s)
    ensures |r| <= |s|
    decreases |s|
  {
    if |s| == 0 then []
    else if p(s[0]) then
      var rest := Filter(s[1..], p);
      assert ([s[0]] + rest)[1..] == rest;
      [s[0]] + rest
    else
      var rest := Filter(s[1..], p);
      assert |rest| > 0 ==> rest[0] in rest && rest[0] != s[0];
      rest
  }

  lemma {:induction false} FilterAppend<T(!new)>(a: seq<T>, b: seq<T>, p: T -> bool)
    ensures Filter(a + b, p) == Filter(a, p) + Filter(b, p)
    decreases |a|
  {
    if |a| == 0 {
      assert a + b == b;
    } else {
      assert (a + b)[0] == a[0];
      assert (a + b)[1..] == a[1..] + b;
      FilterAppend(a[1..], b, p);
    }
  }

  lemma {:induction false} FilterAll<T(!new)>(s: seq<T>, p: T -> bool)
    requires forall x :: x in s ==> p(x)
    ensures Filter(s, p) == s
    decreases |s|
  {
    if |s| > 0 {
      assert forall x :: x in s[1..] ==> x in s;
      FilterAll(s[1..], p);
    }
  }

  lemma {:induction false} FilterNone<T(!new)>(s: seq<T>, p: T -> bool)
    requires forall x :: x in s ==> !p(x)
    ensures Filter(s, p) == []
    decreases |s|
  {
    if |s| > 0 {
      assert forall x :: x in s[1..] ==> x in s;
      FilterNone(s[1..], p);
    }
  }

  /** Filtering twice is filtering once by the conjunction. */
  lemma {:induction false} FilterFuse<T(!new)>(s: seq<T>, p: T -> bool, q: T -> bool, both: T -> bool)
    requires forall x :: both(x) == (p(x) && q(x))
    ensures Filter(Filter(s, p), q) == Filter(s, both)
    decreases |s|
  {
    if |s| > 0 {
      FilterFuse(s[1..], p, q, both);
      if p(s[0]) {
        assert Filter(s, p) == [s[0]] + Filter(s[1..], p);
        assert ([s[0]] + Filter(s[1..], p))[1..] == Filter(s[1..], p);
      }
    }
  }

  /** Two predicates that agree on the elements of `s` filter it alike. */
  lemma {:induction false} FilterCongruent<T(!new)>(s: seq<T>, p: T -> bool, q: T -> bool)
    requires forall x :: x in s ==> p(x) == q(x)
    ensures Filter(s, p) == Filter(s, q)
    decreases |s|
  {
    if |s| > 0 {
      assert forall x :: x in s[1..] ==> x in s;
      FilterCongruent(s[1..], p, q);
    }
  }

  /** `rel` holds of every pair of elements, the earlier one first. */
  predicate Pairwise<T>(s: seq<T>, rel: (T, T) -> bool)
  {
    forall i, j :: 0 <= i < j < |s| ==> rel(s[i], s[j])
  }

  /** Dropping elements keeps every pairwise relation the sequence had. */
  lemma {:induction false} FilterPairwise<T(!new)>(s: seq<T>, p: T -> bool, rel: (T, T) -> bool)
    requires Pairwise(s, rel)
    ensures Pairwise(Filter(s, p), rel)
    decreases |s|
  {
    if |s| > 0 {
      assert Pairwise(s[1..], rel) by {
        forall i, j | 0 <= i < j < |s[1..]| ensures rel(s[1..][i], s[1..][j]) {
          assert s[1..][i] == s[i + 1] && s[1..][j] == s[j + 1];
        }
      }
      FilterPairwise(s[1..], p, rel);
      var rest := Filter(s[1..], p);
      if p(s[0]) {
        var r := [s[0]] + rest;
        forall i, j | 0 <= i < j < |r| ensures rel(r[i], r[j]) {
          assert r[j] == rest[j - 1];
          if i == 0 {
            assert r[j] in s[1..];
            var k :| 0 <= k < |s[1..]| && s[1..][k] == r[j];
            assert s[k + 1] == r[j];
          } else {
            assert r[i] == rest[i - 1];
          }
        }
      }
    }
  }

  /** Python's `str.endswith` and JavaScript's `String.prototype.endsWith`. */
  predicate EndsWith(s: string, suffix: string)
  {
    |suffix| <= |s| && s[|s| - |suffix|..] == suffix
  }

  /** A string ends with `suffix` exactly when it is something followed by it. */
  lemma EndsWithIffAppended(s: string, suffix: string)
    ensures EndsWith(s, suffix) <==> exists front :: s == front + suffix
  {
    if EndsWith(s, suffix) {
      var front := s[..|s| - |suffix|];
      assert s == front + suffix;
    }
    if exists front :: s == front + suffix {
      var front :| s == front + suffix;
      assert s[|s| - |suffix|..] == suffix;
    }
  }

  /** Python's `sep.join(xs)`. */
  function Join(xs: seq<string>, sep: string): string
    decreases |xs|
  {
    if |xs| == 0 then ""
    else if |xs| == 1 then xs[0]
    else xs[0] + sep + Join(xs[1..], sep)
  }
}

=== FILE: text.dfy ===
/** The string operations of Python and Django that the handlers use on
    request fields: `str.strip`, `str.rsplit("@", 1)`, `str.lower` on ASCII,
    and Django's `normalize_email`. */
module Text {
  import opened Wrappers

  /** Python's `str.isspace` for one character: the ASCII separators and
      controls, and the Unicode space and line separators. */
  predicate IsSpace(c: char)
  {
    || c == ' ' || ('\t' <= c <= '\r') || ('\U{1C}' <= c <= '\U{1F}')
    || c == '\U{85}' || c == '\U{A0}' || c == '\U{1680}' || ('\U{2000}' <= c <= '\U{200A}')
    || c == '\U{2028}' || c == '\U{2029}' || c == '\U{202F}' || c == '\U{205F}' || c == '\U{3000}'
  }

  /** `str.lstrip()`: the text after its leading whitespace. */
  function StripStart(s: string): (r: string)
    ensures |r| <= |s| && r == s[|s| - |r|..]
    ensures forall j :: 0 <= j < |s| - |r| ==> IsSpace(s[j])
    ensures |r| > 0 ==> !IsSpace(r[0])
    decreases |s|
  {
    if |s| > 0 && IsSpace(s[0]) then StripStart(s[1..]) else s
  }

  /** `str.rstrip()`: the text before its trailing whitespace. */
  function StripEnd(s: string): (r: string)
    ensures |r| <= |s| && r == s[..|r|]
    ensures forall j :: |r| <= j < |s| ==> IsSpace(s[j])
    ensures |r| > 0 ==> !IsSpace(r[|r| - 1])
    decreases |s|
  {
    if |s| > 0 && IsSpace(s[|s| - 1]) then StripEnd(s[..|s| - 1]) else s
  }

  /** `str.strip()`. */
  function Strip(s: string): string
  {
    StripEnd(StripStart(s))
  }

  /** A text that neither starts nor ends with whitespace is its own strip. */
  lemma {:induction false} StripTrimmed(s: string)
    requires |s| == 0 || (!IsSpace(s[0]) && !IsSpace(s[|s| - 1]))
    ensures Strip(s) == s
  {
    assert StripStart(s) == s;
  }

  /** The position `str.rsplit(c, 1)` splits at: the last occurrence of `c`. */
  function LastIndex(s: string, c: char): (r: Option<nat>)
    ensures r.None? <==> c !in s
    ensures r.Some? ==> r.value < |s| && s[r.value] == c
    ensures r.Some? ==> forall j :: r.value < j < |s| ==> s[j] != c
    decreases |s|
  {
    if |s| == 0 then None
    else if s[|s| - 1] == c then Some(|s| - 1)
    else
      var r := LastIndex(s[..|s| - 1], c);
      assert s == s[..|s| - 1] + [s[|s| - 1]];
      r
  }

  /** `str.lower()` on one character, for the ASCII letters. */
  function LowerChar(c: char): char
  {
    if 'A' <= c <= 'Z' then (c as int + 32) as char else c
  }

  function LowerAscii(s: string): (r: string)
    ensures |r| == |s| && forall i :: 0 <= i < |s| ==> r[i] == LowerChar(s[i])
  {
    seq(|s|, i requires 0 <= i < |s| => LowerChar(s[i]))
  }

  /** The address with its name and `@` (up to index `k`) kept and the
      domain after it lower-cased. */
  function LowerDomain(t: string, k: nat): (r: string)
    requires k < |t|
    ensures |r| == |t| && r[..k + 1] == t[..k + 1]
    ensures forall j :: k < j < |t| ==> r[j] == LowerChar(t[j])
  {
    t[..k + 1] + LowerAscii(t[k + 1..])
  }

  /** Django's `BaseUserManager.normalize_email`: a text without `@` is kept
      as it came; otherwise it is stripped and everything after the last
      `@` is lower-cased. */
  function NormalizeEmail(email: string): (r: string)
    ensures '@' !in email ==> r == email
    ensures '@' in email ==>
              && LastIndex(Strip(email), '@').Some?
              && r == LowerDomain(Strip(email), LastIndex(Strip(email), '@').value)
  {
    var t := Strip(email);
    StripKeepsAt(email);
    match LastIndex(t, '@')
    case None => email
    case Some(k) => LowerDomain(t, k)
  }

  /** Stripping removes only whitespace, so an `@` survives it, and none appears. */
  lemma StripKeepsAt(s: string)
    ensures '@' in s <==> '@' in Strip(s)
  {
    if '@' in s {
      var i :| 0 <= i < |s| && s[i] == '@';
      AtSurvivesStrip(s, i);
    } else {
      StripAddsNoAt(s);
    }
  }

  lemma AtSurvivesStrip(s: string, i: nat)
    requires i < |s| && s[i] == '@'
    ensures '@' in Strip(s)
  {
    var a := StripStart(s);
    var d := |s| - |a|;
    NonSpaceSurvivesStart(s, i);
    NonSpaceSurvivesEnd(a, i - d);
    assert Strip(s)[i - d] == '@';
  }

  /** A non-space character is not removed by `lstrip`. */
  lemma NonSpaceSurvivesStart(s: string, i: nat)
    requires i < |s| && !IsSpace(s[i])
    ensures |s| - |StripStart(s)| <= i
    ensures StripStart(s)[i - (|s| - |StripStart(s)|)] == s[i]
  {
  }

  /** A non-space character is not removed by `rstrip`. */
  lemma NonSpaceSurvivesEnd(a: string, i: nat)
    requires i < |a| && !IsSpace(a[i])
    ensures i < |StripEnd(a)| && StripEnd(a)[i] == a[i]
  {
  }

  lemma StripAddsNoAt(s: string)
    requires '@' !in s
    ensures '@' !in Strip(s)
  {
    var a := StripStart(s);
    var t := Strip(s);
    forall j | 0 <= j < |t| ensures t[j] != '@' {
      assert t[j] == a[j] == s[|s| - |a| + j];
    }
  }

  /** The normal form starts and ends where the stripped text does, so it
      is its own strip, and its last `@` is the one it was split at. */
  lemma LowerDomainShape(t: string, k: nat)
    requires k < |t| && t[k] == '@' && forall j :: k < j < |t| ==> t[j] != '@'
    requires !IsSpace(t[0]) && !IsSpace(t[|t| - 1])
    ensures var r := LowerDomain(t, k);
      && Strip(r) == r && LastIndex(r, '@') == Some(k)
  {
    LowerDomainTrimmed(t, k);
    LowerDomainLastAt(t, k);
  }

  lemma LowerDomainTrimmed(t: string, k: nat)
    requires k < |t| && t[k] == '@'
    requires !IsSpace(t[0]) && !IsSpace(t[|t| - 1])
    ensures Strip(LowerDomain(t, k)) == LowerDomain(t, k)
  {
    var r := LowerDomain(t, k);
    assert r[0] == t[0] by {
      assert r[..k + 1][0] == t[..k + 1][0];
    }
    assert !IsSpace(r[|r| - 1]) by {
      if k < |r| - 1 {
        assert r[|r| - 1] == LowerChar(t[|t| - 1]);
      } else {
        assert r[k] == r[..k + 1][k] == t[..k + 1][k];
      }
    }
    StripTrimmed(r);
  }

  lemma LowerDomainLastAt(t: string, k: nat)
    requires k < |t| && t[k] == '@' && forall j :: k < j < |t| ==> t[j] != '@'
    ensures LastIndex(LowerDomain(t, k), '@') == Some(k)
  {
    var r := LowerDomain(t, k);
    assert r[k] == r[..k + 1][k] == t[..k + 1][k];
    forall j | k < j < |r| ensures r[j] != '@' {
      assert r[j] == LowerChar(t[j]);
    }
    var m := LastIndex(r, '@');
    assert m.Some?;
  }

  /** A non-empty strip result starts and ends with a non-space. */
  lemma StripEdges(s: string)
    requires |Strip(s)| > 0
    ensures !IsSpace(Strip(s)[0]) && !IsSpace(Strip(s)[|Strip(s)| - 1])
  {
    var a := StripStart(s);
    assert Strip(s)[0] == a[0];
  }

  /** Lower-casing the domain again changes nothing. */
  lemma LowerDomainAgain(t: string, k: nat)
    requires k < |t|
    ensures LowerDomain(LowerDomain(t, k), k) == LowerDomain(t, k)
  {
    var r := LowerDomain(t, k);
    var r2 := LowerDomain(r, k);
    forall j | 0 <= j < |r| ensures r2[j] == r[j] {
      if j <= k {
        assert r2[j] == r2[..k + 1][j] == r[..k + 1][j];
      } else {
        assert r[j] == LowerChar(t[j]);
        assert r2[j] == LowerChar(r[j]);
      }
    }
  }

  /** Normalising an address twice changes nothing more. */
  lemma NormalizeEmailIdempotent(email: string)
    ensures NormalizeEmail(NormalizeEmail(email)) == NormalizeEmail(email)
  {
    if '@' in email {
      var t := Strip(email);
      var k := LastIndex(t, '@').value;
      var r := LowerDomain(t, k);
      StripEdges(email);
      LowerDomainShape(t, k);
      assert r[k] == '@';
      assert NormalizeEmail(r) == LowerDomain(r, k);
      LowerDomainAgain(t, k);
    }
  }

  /** The address from the registration example: the outer spaces go and
      only the domain is lower-cased. */
  lemma NormalizeEmailExample()
    ensures NormalizeEmail(" Bob@EXAMPLE.COM ") == "Bob@example.com"
  {
    var t := "Bob@EXAMPLE.COM";
    ExampleStrip();
    ExampleLastAt();
    ExampleLower();
    assert '@' in " Bob@EXAMPLE.COM " by {
      assert " Bob@EXAMPLE.COM "[4] == '@';
    }
  }

  lemma ExampleStrip()
    ensures Strip(" Bob@EXAMPLE.COM ") == "Bob@EXAMPLE.COM"
  {
    var s := " Bob@EXAMPLE.COM ";
    var a := s[1..];
    assert StripStart(a) == a;
    assert StripStart(s) == a;
    var t := a[..|a| - 1];
    assert t == "Bob@EXAMPLE.COM";
    assert StripEnd(t) == t;
    assert StripEnd(a) == t;
  }

  lemma ExampleLastAt()
    ensures LastIndex("Bob@EXAMPLE.COM", '@') == Some(3)
  {
    var t := "Bob@EXAMPLE.COM";
    assert t[3] == '@';
    var r := LastIndex(t, '@');
    assert r.Some?;
    assert forall j :: 3 < j < |t| ==> t[j] != '@';
  }

  lemma ExampleLower()
    ensures LowerDomain("Bob@EXAMPLE.COM", 3) == "Bob@example.com"
  {
    var r := LowerDomain("Bob@EXAMPLE.COM", 3);
    assert r[..4] == "Bob@";
    assert r == "Bob@example.com";
  }
}

=== FILE: upload_properties.dfy ===
/** What one upload, or two in a row, does to the store: the new dataset
    and its records on success, the partial state a failing record insert
    leaves behind, and the retention window afterwards. */
module UploadProperties {
  import opened Wrappers
  import opened Seqs
  import opened Assoc
  import opened Json
  import opened Frame
  import opened Models
  import opened Views
  import FileUpload

  /** No record of a valid store points at an id that has not been handed out. */
  lemma NoRecordsForFreshId(s: Store)
    requires Valid(s)
    ensures RecordsOf(s, s.nextDatasetId) == []
  {
    forall x | x in s.records ensures !OwnedBy(s.nextDatasetId)(x) {
      var d :| d in s.datasets && d.id == x.dataset;
    }
    FilterNone(s.records, OwnedBy(s.nextDatasetId));
  }

  /** Right after the record loop, the new dataset owns exactly the records it made. */
  lemma RecordsOfCreated(s: Store, d: Dataset, rows: seq<Row>, rowError: Row -> Option<string>)
    requires Valid(s) && d.id == s.nextDatasetId
    ensures var k := StoredPrefix(rows, rowError);
      RecordsOf(CreateRecords(CreateDataset(s, d), d.id, rows, rowError).0, d.id)
        == NewRecords(s.nextRecordId, d.id, rows[..k])
  {
    var k := StoredPrefix(rows, rowError);
    var added := NewRecords(s.nextRecordId, d.id, rows[..k]);
    var s1 := CreateDataset(s, d);
    assert s1.records == s.records && s1.nextRecordId == s.nextRecordId;
    var s2 := CreateRecords(s1, d.id, rows, rowError).0;
    assert s2.records == s.records + added;
    NoRecordsForFreshId(s);
    FilterAppend(s.records, added, OwnedBy(d.id));
    NewRecordsOwned(s.nextRecordId, d.id, rows[..k]);
    FilterAll(added, OwnedBy(d.id));
    calc {
      RecordsOf(s2, d.id);
      Filter(s.records + added, OwnedBy(d.id));
      Filter(s.records, OwnedBy(d.id)) + Filter(added, OwnedBy(d.id));
      [] + added;
    }
    assert [] + added == added;
  }

  /** Every record the loop makes points at the dataset it was made for. */
  lemma NewRecordsOwned(start: nat, dataset: nat, rows: seq<Row>)
    ensures forall x :: x in NewRecords(start, dataset, rows) ==> OwnedBy(dataset)(x)
  {
    forall x | x in NewRecords(start, dataset, rows) ensures OwnedBy(dataset)(x) {
      var i :| 0 <= i < |rows| && NewRecords(start, dataset, rows)[i] == x;
    }
  }

  /** Trimming leaves the records of a surviving dataset as they were. */
  lemma TrimKeepsRecordsOf(s: Store, max: nat, id: nat)
    requires Valid(s) && id in DatasetIds(MaintainDatasetHistory(s, max).datasets)
    ensures RecordsOf(MaintainDatasetHistory(s, max), id) == RecordsOf(s, id)
  {
    if |s.datasets| > max {
      var gone := DatasetIds(s.datasets[max..]);
      DeleteEachAtOnce(s, s.datasets[max..]);
      KeptAreNotDoomed(s.datasets, max);
      assert id !in gone;
      var both := (x: Record) => x.dataset !in gone && x.dataset == id;
      FilterFuse(s.records, KeepRecord(gone), OwnedBy(id), both);
      FilterCongruent(s.records, both, OwnedBy(id));
    }
  }

  /** A successful upload stores one new, newest dataset whose count is the
      number of rows and whose distribution is the `Type` histogram, with
      one record per row in row order; then at most `max` datasets remain,
      the newest ones. */
  lemma UploadSucceeds(s: Store, session: Option<nat>, file: Option<UploadedFile>, orm: Orm, max: nat)
    requires Valid(s) && Accepted(file, orm)
    ensures var out := UploadCsv(s, session, file, orm, max);
      var rows := file.value.content.table.rows;
      var d := out.response.body.dataset;
      && out.response.Success?
      && d.id == s.nextDatasetId && d.id !in DatasetIds(s.datasets)
      && d.filename == file.value.name
      && d.uploadedBy == Uploader(s, session)
      && d.totalCount == |rows|
      && Loads(d.distribution) == Some(ValueCounts(rows, "Type"))
      && out.store.datasets == (if |s.datasets| < max then [d] + s.datasets else ([d] + s.datasets)[..max])
      && out.store.users == s.users
      && (max >= 1 ==>
            && out.response.body.records == NewRecords(s.nextRecordId, d.id, rows)
            && RecordsOf(out.store, d.id) == out.response.body.records)
  {
    var table := file.value.content.table;
    var rows := table.rows;
    var d := NewDataset(s, session, file.value.name, table);
    var s1 := CreateDataset(s, d);
    CreateDatasetValid(s, session, file.value.name, table);
    var s2 := CreateRecords(s1, d.id, rows, orm.rowError).0;
    CreateRecordsValid(s1, d.id, rows, orm.rowError);
    assert StoredPrefix(rows, orm.rowError) == |rows|;
    assert rows[..|rows|] == rows;
    RecordsOfCreated(s, d, rows, orm.rowError);
    LoadsDumps(ValueCounts(rows, "Type"));
    assert d.id !in DatasetIds(s.datasets) by {
      forall e | e in s.datasets ensures e.id != d.id {
      }
    }
    if max >= 1 {
      assert d == s2.datasets[0];
      TrimKeepsNewest(s2, max);
      assert d.id in DatasetIds(MaintainDatasetHistory(s2, max).datasets);
      TrimKeepsRecordsOf(s2, max, d.id);
    }
  }

  /** The first upload into an empty store, with room for at least one
      dataset, leaves exactly that dataset, holding every stored record,
      one per CSV row. */
  lemma FirstUpload(file: Option<UploadedFile>, orm: Orm, max: nat)
    requires Accepted(file, orm) && max >= 1
    ensures var out := UploadCsv(EmptyStore(), None, file, orm, max);
      var d := out.response.body.dataset;
      && out.response.Success?
      && out.store.datasets == [d]
      && |out.store.records| == |file.value.content.table.rows|
      && RecordsOf(out.store, d.id) == out.store.records
  {
    var out := UploadCsv(EmptyStore(), None, file, orm, max);
    UploadSucceeds(EmptyStore(), None, file, orm, max);
    SoleDatasetOwnsAll(out.store, out.response.body.dataset);
  }

  /** In a valid store with a single dataset, every record is that dataset's. */
  lemma SoleDatasetOwnsAll(s: Store, d: Dataset)
    requires Valid(s) && s.datasets == [d]
    ensures RecordsOf(s, d.id) == s.records
  {
    assert DatasetIds(s.datasets) == {d.id};
    FilterAll(s.records, OwnedBy(d.id));
  }

  /** A record insert that raises leaves the new dataset stored with only the
      records of the rows before it, fewer than its row count, and skips the
      retention step. */
  lemma UploadPartialFailure(s: Store, session: Option<nat>, file: Option<UploadedFile>, orm: Orm, max: nat)
    requires Valid(s)
    requires file.Some? && EndsWith(file.value.name, ".csv") && file.value.content.Parsed?
    requires |MissingColumns(file.value.content.table.columns)| == 0
    requires orm.statsError(file.value.content.table).None?
    requires StoredPrefix(file.value.content.table.rows, orm.rowError) < |file.value.content.table.rows|
    ensures var out := UploadCsv(s, session, file, orm, max);
      var table := file.value.content.table;
      var k := StoredPrefix(table.rows, orm.rowError);
      && out.response == Failure(400, ProcessingPrefix + orm.rowError(table.rows[k]).value)
      && out.store.datasets == [NewDataset(s, session, file.value.name, table)] + s.datasets
      && RecordsOf(out.store, s.nextDatasetId) == NewRecords(s.nextRecordId, s.nextDatasetId, table.rows[..k])
      && |RecordsOf(out.store, s.nextDatasetId)| < out.store.datasets[0].totalCount
      && Valid(out.store)
  {
    var table := file.value.content.table;
    var d := NewDataset(s, session, file.value.name, table);
    RecordsOfCreated(s, d, table.rows, orm.rowError);
  }

  /** With room for two, an upload puts its dataset in front of the previous newest. */
  lemma UploadGoesInFront(s: Store, session: Option<nat>, file: Option<UploadedFile>, orm: Orm, max: nat)
    requires Valid(s) && Accepted(file, orm) && max >= 2 && |s.datasets| > 0
    ensures var out := UploadCsv(s, session, file, orm, max);
      && out.response.Success?
      && out.response.body.dataset.id != s.datasets[0].id
      && |out.store.datasets| >= 2
      && out.store.datasets[0] == out.response.body.dataset
      && out.store.datasets[1] == s.datasets[0]
  {
    UploadSucceeds(s, session, file, orm, max);
    assert s.datasets[0] in s.datasets;
  }

  /** Uploading the same file twice gives two datasets, not one: with room
      for two, both are kept, the second in front. */
  lemma UploadTwiceKeepsBoth(s: Store, session: Option<nat>, file: Option<UploadedFile>, orm: Orm, max: nat)
    requires Valid(s) && Accepted(file, orm) && max >= 2
    ensures var first := UploadCsv(s, session, file, orm, max);
      var second := UploadCsv(first.store, session, file, orm, max);
      && first.response.Success? && second.response.Success?
      && second.response.body.dataset.id != first.response.body.dataset.id
      && |second.store.datasets| >= 2
      && second.store.datasets[0] == second.response.body.dataset
      && second.store.datasets[1] == first.response.body.dataset
  {
    var first := UploadCsv(s, session, file, orm, max);
    UploadSucceeds(s, session, file, orm, max);
    assert first.store.datasets[0] == first.response.body.dataset;
    UploadGoesInFront(first.store, session, file, orm, max);
  }

  /** The distribution a successful upload stores reads back as the `Type`
      histogram: one key per distinct type text, each counting its rows, the
      counts adding up to the row count when no type is missing. */
  lemma UploadHistogram(s: Store, session: Option<nat>, file: Option<UploadedFile>, orm: Orm, max: nat)
    requires Valid(s) && Accepted(file, orm)
    ensures var out := UploadCsv(s, session, file, orm, max);
      var rows := file.value.content.table.rows;
      var d := out.response.body.dataset;
      && GetDistributionDict(d).Some?
      && (forall k :: k in GetDistributionDict(d).value <==> Occurrences(rows, "Type", k) > 0)
      && (forall k :: k in GetDistributionDict(d).value ==> GetDistributionDict(d).value[k] == Occurrences(rows, "Type", k))
      && Sum(Loads(d.distribution).value) == Present(rows, "Type")
      && ((forall i :: 0 <= i < |rows| ==> Get(rows[i], "Type").Value?) ==> Sum(Loads(d.distribution).value) == d.totalCount)
  {
    var rows := file.value.content.table.rows;
    var h := ValueCounts(rows, "Type");
    UploadSucceeds(s, session, file, orm, max);
    ToMapLookup(h);
    if forall i :: 0 <= i < |rows| ==> Get(rows[i], "Type").Value? {
      PresentWhenNoneMissing(rows, "Type");
    }
  }

  /** A file the web client keeps is never refused by the server for its name. */
  lemma ClientAcceptedPassesExtensionCheck(s: Store, session: Option<nat>, f: FileUpload.SelectedFile,
                                           content: Content, orm: Orm, max: nat)
    requires FileUpload.Acceptable(f)
    ensures UploadCsv(s, session, Some(UploadedFile(f.name, content)), orm, max).response != Failure(400, NotCsv)
  {
    var file := Some(UploadedFile(f.name, content));
    var out := UploadCsv(s, session, file, orm, max);
    assert |NotCsv| == 18 && |ProcessingPrefix| == 22 && |MissingPrefix| == 26;
    assert out.response.Failure? ==> |out.response.error| > 18 by {
      if out.response.Failure? {
        assert out.response.error[..22] == ProcessingPrefix || out.response.error[..26] == MissingPrefix;
      }
    }
  }
}

=== FILE: views.dfy ===
/** The request handlers of `backend/api/views.py` as transitions of the
    store: each takes the store (and the request's session user) and
    returns the HTTP response together with the store afterwards. */
module Views {
  import opened Wrappers
  import opened Seqs
  import opened Assoc
  import opened Json
  import opened Frame
  import opened Models
  import opened Text

  /** `settings.MAX_DATASET_HISTORY`: the `get_history` docstring gives five. The
      operations take the bound as a parameter and this is its default. */
  const MaxDatasetHistory: nat := 5

  datatype Response<T> = Success(status: nat, body: T) | Failure(status: nat, error: string)

  datatype Step<T> = Step(response: Response<T>, store: Store)

  /** `UserSerializer`: the public fields of a user. */
  datatype UserView = UserView(id: nat, username: string, email: string, firstName: string, lastName: string)

  /** `EquipmentDatasetSerializer`: a dataset with its records. */
  datatype DatasetDetail = DatasetDetail(dataset: Dataset, records: seq<Record>)

  /** What `pd.read_csv` made of the uploaded bytes: a table, or the message
      of the exception it raised. */
  datatype Content = Parsed(table: Table) | Unreadable(reason: string)

  datatype UploadedFile = UploadedFile(name: string, content: Content)

  /** The outcome of the library calls the upload cannot see into: the
      message of the exception raised while taking the column means and
      inserting the dataset row (for a non-numeric column, say), and the one
      raised while inserting the record of a given row (a value the float
      column refuses). `None` means the call succeeds. */
  datatype Orm = Orm(statsError: Table -> Option<string>, rowError: Row -> Option<string>)

  const RequiredColumns: seq<string> := ["Equipment Name", "Type", "Flowrate", "Pressure", "Temperature"]

  const NoFile := "No file provided"
  const NotCsv := "File must be a CSV"
  const MissingPrefix := "Missing required columns: "
  const ProcessingPrefix := "Error processing CSV: "

  function ViewOf(u: User): UserView
  {
    UserView(u.id, u.username, u.email, "", "")
  }

  // ------------------------------------------------------------------ upload

  /** The required columns the header lacks, in the order they are required. */
  function MissingColumns(columns: seq<string>): (r: seq<string>)
    ensures forall c :: c in r <==> c in RequiredColumns && c !in columns
    ensures Subseq(r, RequiredColumns)
  {
    Filter(RequiredColumns, (c: string) => c !in columns)
  }

  /** `request.user if request.user.is_authenticated else None`: a session
      whose user no longer exists is anonymous. */
  function Uploader(s: Store, session: Option<nat>): (r: Option<nat>)
    ensures r.Some? <==> session.Some? && session.value in UserIds(s.users)
    ensures r.Some? ==> r == session
  {
    if session.Some? && session.value in UserIds(s.users) then session else None
  }

  function MakeRecord(id: nat, dataset: nat, row: Row): Record
  {
    Record(id, dataset, Get(row, "Equipment Name"), Get(row, "Type"),
           Get(row, "Flowrate"), Get(row, "Pressure"), Get(row, "Temperature"))
  }

  /** The records made from `rows`, in row order, numbered from `start`. */
  function NewRecords(start: nat, dataset: nat, rows: seq<Row>): seq<Record>
  {
    seq(|rows|, i requires 0 <= i < |rows| => MakeRecord(start + i, dataset, rows[i]))
  }

  /** The number of leading rows whose record can be inserted. */
  function StoredPrefix(rows: seq<Row>, rowError: Row -> Option<string>): (k: nat)
    ensures k <= |rows|
    ensures forall i :: 0 <= i < k ==> rowError(rows[i]).None?
    ensures k < |rows| ==> rowError(rows[k]).Some?
    decreases |rows|
  {
    if |rows| == 0 || rowError(rows[0]).Some? then 0
    else 1 + StoredPrefix(rows[1..], rowError)
  }

  lemma NewRecordsCons(start: nat, dataset: nat, rows: seq<Row>)
    requires |rows| > 0
    ensures NewRecords(start, dataset, rows)
         == [MakeRecord(start, dataset, rows[0])] + NewRecords(start + 1, dataset, rows[1..])
  {
  }

  /** The record loop: one record per row, in order, until a row's insert
      raises; the records made before that stay. */
  function CreateRecords(s: Store, dataset: nat, rows: seq<Row>, rowError: Row -> Option<string>): (out: (Store, Option<string>))
    ensures var k := StoredPrefix(rows, rowError);
      && out.0 == s.(records := s.records + NewRecords(s.nextRecordId, dataset, rows[..k]),
                     nextRecordId := s.nextRecordId + k)
      && (out.1.None? <==> k == |rows|)
      && (k < |rows| ==> out.1 == rowError(rows[k]))
    decreases |rows|
  {
    if |rows| == 0 then (s, None)
    else
      match rowError(rows[0])
      case Some(e) => (s, Some(e))
      case None =>
        var x := MakeRecord(s.nextRecordId, dataset, rows[0]);
        var s' := s.(records := s.records + [x], nextRecordId := s.nextRecordId + 1);
        var out := CreateRecords(s', dataset, rows[1..], rowError);
        var k := StoredPrefix(rows, rowError);
        assert rows[..k][1..] == rows[1..][..k - 1];
        NewRecordsCons(s.nextRecordId, dataset, rows[..k]);
        out
  }

  /** The new dataset row: stamped with the clock, the next id, the row
      count, and the JSON text of the `Type` histogram. */
  function NewDataset(s: Store, session: Option<nat>, name: string, table: Table): Dataset
  {
    SetDistributionDict(Dataset(s.nextDatasetId, Uploader(s, session), s.clock, name, |table.rows|, ""),
                        ValueCounts(table.rows, "Type"))
  }

  function CreateDataset(s: Store, d: Dataset): Store
  {
    s.(datasets := [d] + s.datasets, nextDatasetId := s.nextDatasetId + 1, clock := s.clock + 1)
  }

  /** Everything an upload needs for a 201: a file, the `.csv` name, a
      readable table with every required column, and no library call that
      raises. */
  predicate Accepted(file: Option<UploadedFile>, orm: Orm)
  {
    && file.Some?
    && EndsWith(file.value.name, ".csv")
    && file.value.content.Parsed?
    && (forall c :: c in RequiredColumns ==> c in file.value.content.table.columns)
    && orm.statsError(file.value.content.table).None?
    && (forall i :: 0 <= i < |file.value.content.table.rows| ==> orm.rowError(file.value.content.table.rows[i]).None?)
  }

  /** `upload_csv`. */
  function UploadCsv(s: Store, session: Option<nat>, file: Option<UploadedFile>, orm: Orm, max: nat): (out: Step<DatasetDetail>)
    ensures file.None? ==> out == Step(Failure(400, NoFile), s)
    ensures file.Some? && !EndsWith(file.value.name, ".csv") ==> out == Step(Failure(400, NotCsv), s)
    ensures file.Some? && EndsWith(file.value.name, ".csv") && file.value.content.Unreadable? ==>
              out == Step(Failure(400, ProcessingPrefix + file.value.content.reason), s)
    ensures file.Some? && EndsWith(file.value.name, ".csv") && file.value.content.Parsed?
            && |MissingColumns(file.value.content.table.columns)| > 0 ==>
              out == Step(Failure(400, MissingPrefix + Join(MissingColumns(file.value.content.table.columns), ", ")), s)
    ensures out.response.Success? <==> Accepted(file, orm)
    ensures out.response.Success? ==> out.response.status == 201
    ensures out.response.Failure? ==> out.response.status == 400
    ensures Valid(s) ==> Valid(out.store)
  {
    if file.None? then Step(Failure(400, NoFile), s)
    else if !EndsWith(file.value.name, ".csv") then Step(Failure(400, NotCsv), s)
    else
      match file.value.content
      case Unreadable(reason) => Step(Failure(400, ProcessingPrefix + reason), s)
      case Parsed(table) =>
        var missing := MissingColumns(table.columns);
        if |missing| > 0 then
          assert missing[0] in missing;
          Step(Failure(400, MissingPrefix + Join(missing, ", ")), s)
        else SaveUpload(s, session, file.value.name, table, orm, max)
  }

  /** The rest of the `try` block once the columns are known to be there:
      the statistics and the dataset row, the record loop, then retention.
      An exception on the way is a 400 with its message. */
  function SaveUpload(s: Store, session: Option<nat>, name: string, table: Table, orm: Orm, max: nat): (out: Step<DatasetDetail>)
    ensures out.response.Success? <==>
              && orm.statsError(table).None?
              && forall i :: 0 <= i < |table.rows| ==> orm.rowError(table.rows[i]).None?
    ensures out.response.Success? ==> out.response.status == 201
    ensures out.response.Failure? ==> out.response.status == 400
    ensures orm.statsError(table).Some? ==> out == Step(Failure(400, ProcessingPrefix + orm.statsError(table).value), s)
    ensures Valid(s) ==> Valid(out.store)
  {
    match orm.statsError(table)
    case Some(e) => Step(Failure(400, ProcessingPrefix + e), s)
    case None =>
      var d := NewDataset(s, session, name, table);
      var s1 := CreateDataset(s, d);
      CreateDatasetValid(s, session, name, table);
      var (s2, err) := CreateRecords(s1, d.id, table.rows, orm.rowError);
      CreateRecordsValid(s1, d.id, table.rows, orm.rowError);
      match err
      case Some(e) => Step(Failure(400, ProcessingPrefix + e), s2)
      case None =>
        var s3 := MaintainDatasetHistory(s2, max);
        Step(Success(201, DatasetDetail(d, RecordsOf(s3, d.id))), s3)
  }

  lemma CreateDatasetValid(s: Store, session: Option<nat>, name: string, table: Table)
    ensures Valid(s) ==> Valid(CreateDataset(s, NewDataset(s, session, name, table)))
  {
    var d := NewDataset(s, session, name, table);
    var r := CreateDataset(s, d);
    if Valid(s) {
      forall i, j | 0 <= i < j < |r.datasets|
        ensures r.datasets[i].uploadedAt > r.datasets[j].uploadedAt && r.datasets[i].id != r.datasets[j].id
      {
        assert r.datasets[j] == s.datasets[j - 1];
        assert r.datasets[j] in s.datasets;
        if i > 0 {
          assert r.datasets[i] == s.datasets[i - 1];
        }
      }
      forall x | x in r.records ensures x.dataset in DatasetIds(r.datasets) {
        var e :| e in s.datasets && e.id == x.dataset;
        assert e in r.datasets;
      }
    }
  }

  lemma CreateRecordsValid(s: Store, dataset: nat, rows: seq<Row>, rowError: Row -> Option<string>)
    requires dataset in DatasetIds(s.datasets)
    ensures Valid(s) ==> Valid(CreateRecords(s, dataset, rows, rowError).0)
  {
    var k := StoredPrefix(rows, rowError);
    var added := NewRecords(s.nextRecordId, dataset, rows[..k]);
    NewRecordsAt(s.nextRecordId, dataset, rows[..k]);
    if Valid(s) {
      AppendRecordsValid(s, added, s.nextRecordId + k);
    }
  }

  lemma NewRecordsAt(start: nat, dataset: nat, rows: seq<Row>)
    ensures |NewRecords(start, dataset, rows)| == |rows|
    ensures forall i :: 0 <= i < |rows| ==> NewRecords(start, dataset, rows)[i].id == start + i
    ensures forall i :: 0 <= i < |rows| ==> NewRecords(start, dataset, rows)[i].dataset == dataset
  {
  }

  /** Appending records numbered on from the counter, each pointing at a
      stored dataset, keeps the store valid. */
  lemma AppendRecordsValid(s: Store, added: seq<Record>, next: nat)
    requires Valid(s) && next == s.nextRecordId + |added|
    requires forall i :: 0 <= i < |added| ==> added[i].id == s.nextRecordId + i
    requires forall i :: 0 <= i < |added| ==> added[i].dataset in DatasetIds(s.datasets)
    ensures Valid(s.(records := s.records + added, nextRecordId := next))
  {
    var r := s.(records := s.records + added, nextRecordId := next);
    var n := |s.records|;
    forall i, j | 0 <= i < j < |r.records| ensures r.records[i].id != r.records[j].id {
      if j < n {
        assert r.records[i] == s.records[i] && r.records[j] == s.records[j];
      } else if i < n {
        assert r.records[i] == s.records[i];
        assert s.records[i] in s.records;
        assert r.records[j] == added[j - n];
      } else {
        assert r.records[i] == added[i - n] && r.records[j] == added[j - n];
      }
    }
    forall x | x in r.records ensures x.id < r.nextRecordId && x.dataset in DatasetIds(r.datasets) {
      var i :| 0 <= i < |r.records| && r.records[i] == x;
      if i < n {
        assert x == s.records[i];
        assert x in s.records;
      } else {
        assert x == added[i - n];
      }
    }
  }

  // --------------------------------------------------------------- retention

  /** The deleting loop of `maintain_dataset_history`, one `dataset.delete()` at a time. */
  function DeleteEach(s: Store, doomed: seq<Dataset>): Store
    decreases |doomed|
  {
    if |doomed| == 0 then s else DeleteEach(DeleteDataset(s, doomed[0].id), doomed[1..])
  }

  /** Deleting one by one is deleting all of them at once. */
  lemma {:induction false} DeleteEachAtOnce(s: Store, doomed: seq<Dataset>)
    ensures DeleteEach(s, doomed) == DeleteDatasets(s, DatasetIds(doomed))
    decreases |doomed|
  {
    if |doomed| == 0 {
      assert DatasetIds(doomed) == {};
      DeleteNothing(s);
    } else {
      var id := doomed[0].id;
      var rest := DatasetIds(doomed[1..]);
      DatasetIdsCons(doomed);
      calc {
        DeleteEach(s, doomed);
        DeleteEach(DeleteDataset(s, id), doomed[1..]);
        { DeleteEachAtOnce(DeleteDataset(s, id), doomed[1..]); }
        DeleteDatasets(DeleteDatasets(s, {id}), rest);
        { DeleteTwice(s, {id}, rest); }
        DeleteDatasets(s, {id} + rest);
      }
    }
  }

  lemma DeleteNothing(s: Store)
    ensures DeleteDatasets(s, {}) == s
  {
    FilterAll(s.datasets, KeepDataset({}));
    FilterAll(s.records, KeepRecord({}));
  }

  lemma DatasetIdsCons(ds: seq<Dataset>)
    requires |ds| > 0
    ensures DatasetIds(ds) == {ds[0].id} + DatasetIds(ds[1..])
  {
    forall d | d in ds ensures d == ds[0] || d in ds[1..] {
    }
  }

  lemma DeleteTwice(s: Store, first: set<nat>, second: set<nat>)
    ensures DeleteDatasets(DeleteDatasets(s, first), second) == DeleteDatasets(s, first + second)
  {
    FilterFuse(s.datasets, KeepDataset(first), KeepDataset(second), KeepDataset(first + second));
    FilterFuse(s.records, KeepRecord(first), KeepRecord(second), KeepRecord(first + second));
  }

  /** `maintain_dataset_history`: past the bound, everything after the first
      `max` datasets (newest first) goes, with its records. */
  function MaintainDatasetHistory(s: Store, max: nat): (r: Store)
    ensures |s.datasets| <= max ==> r == s
    ensures Valid(s) && |s.datasets| > max ==> r.datasets == s.datasets[..max]
    ensures Valid(s) ==> forall x :: x in r.records <==> x in s.records && x.dataset in DatasetIds(r.datasets)
    ensures Valid(s) ==> Valid(r)
    ensures r.users == s.users && r.nextDatasetId == s.nextDatasetId && r.clock == s.clock
  {
    if |s.datasets| > max then
      DeleteEachAtOnce(s, s.datasets[max..]);
      TrimValid(s, max);
      DeleteEach(s, s.datasets[max..])
    else s
  }

  lemma TrimValid(s: Store, max: nat)
    requires |s.datasets| > max
    ensures var r := DeleteDatasets(s, DatasetIds(s.datasets[max..]));
      Valid(s) ==>
        && r.datasets == s.datasets[..max]
        && forall x :: x in r.records <==> x in s.records && x.dataset in DatasetIds(r.datasets)
  {
    if Valid(s) {
      KeptAreNotDoomed(s.datasets, max);
      TrimDatasets(s.datasets, max);
      TrimRecords(s, max);
    }
  }

  /** With unique ids, no dataset among the first `max` shares an id with a later one. */
  lemma KeptAreNotDoomed(datasets: seq<Dataset>, max: nat)
    requires UniqueDatasetIds(datasets) && max <= |datasets|
    ensures forall d :: d in datasets[..max] ==> d.id !in DatasetIds(datasets[max..])
  {
    var kept, doomed := datasets[..max], datasets[max..];
    forall d | d in kept ensures d.id !in DatasetIds(doomed) {
      var i :| 0 <= i < |kept| && kept[i] == d;
      forall e | e in doomed ensures e.id != d.id {
        var j :| 0 <= j < |doomed| && doomed[j] == e;
        assert datasets[i] == d && datasets[max + j] == e;
      }
    }
  }

  lemma TrimDatasets(datasets: seq<Dataset>, max: nat)
    requires max <= |datasets|
    requires forall d :: d in datasets[..max] ==> d.id !in DatasetIds(datasets[max..])
    ensures Filter(datasets, KeepDataset(DatasetIds(datasets[max..]))) == datasets[..max]
  {
    var kept, doomed := datasets[..max], datasets[max..];
    var p := KeepDataset(DatasetIds(doomed));
    assert datasets == kept + doomed;
    FilterAppend(kept, doomed, p);
    FilterAll(kept, p);
    FilterNone(doomed, p);
  }

  lemma TrimRecords(s: Store, max: nat)
    requires Valid(s) && max <= |s.datasets|
    requires forall d :: d in s.datasets[..max] ==> d.id !in DatasetIds(s.datasets[max..])
    ensures forall x :: x in s.records ==>
              (x.dataset !in DatasetIds(s.datasets[max..]) <==> x.dataset in DatasetIds(s.datasets[..max]))
  {
    var kept, doomed := s.datasets[..max], s.datasets[max..];
    assert s.datasets == kept + doomed;
    assert DatasetIds(s.datasets) == DatasetIds(kept) + DatasetIds(doomed);
  }

  /** Trimming twice is trimming once. */
  lemma TrimIdempotent(s: Store, max: nat)
    requires Valid(s)
    ensures MaintainDatasetHistory(MaintainDatasetHistory(s, max), max) == MaintainDatasetHistory(s, max)
  {
  }

  /** With room for at least one dataset, the newest one always survives. */
  lemma TrimKeepsNewest(s: Store, max: nat)
    requires Valid(s) && max >= 1 && |s.datasets| > 0
    ensures |MaintainDatasetHistory(s, max).datasets| > 0
    ensures MaintainDatasetHistory(s, max).datasets[0] == s.datasets[0]
  {
  }

  // ------------------------------------------------------------------- reads

  /** `get_history`: the first `max` datasets of the newest-first queryset. */
  function GetHistory(s: Store, max: nat): (r: Response<seq<Dataset>>)
    ensures r.Success? && r.status == 200
    ensures |r.body| == if |s.datasets| < max then |s.datasets| else max
    ensures r.body <= s.datasets
  {
    Success(200, if |s.datasets| < max then s.datasets else s.datasets[..max])
  }

  /** At the default bound the history page and the retained store both hold
      at most five datasets. */
  lemma DefaultHistoryWindow(s: Store)
    requires Valid(s)
    ensures |GetHistory(s, MaxDatasetHistory).body| <= MaxDatasetHistory
    ensures |MaintainDatasetHistory(s, MaxDatasetHistory).datasets| <= MaxDatasetHistory
  {
    if |s.datasets| > MaxDatasetHistory {
      assert MaintainDatasetHistory(s, MaxDatasetHistory).datasets == s.datasets[..MaxDatasetHistory];
    }
  }

  /** The history is newest first, and every dataset it leaves out is older
      than every dataset it shows. */
  lemma HistoryShowsNewest(s: Store, max: nat)
    requires Valid(s)
    ensures NewestFirst(GetHistory(s, max).body)
    ensures forall i, j :: 0 <= i < |GetHistory(s, max).body| <= j < |s.datasets| ==>
              GetHistory(s, max).body[i].uploadedAt > s.datasets[j].uploadedAt
  {
    var h := GetHistory(s, max).body;
    forall i, j | 0 <= i < j < |h| ensures h[i].uploadedAt > h[j].uploadedAt {
      assert h[i] == s.datasets[i] && h[j] == s.datasets[j];
    }
    forall i, j | 0 <= i < |h| <= j < |s.datasets| ensures h[i].uploadedAt > s.datasets[j].uploadedAt {
      assert h[i] == s.datasets[i];
    }
  }

  /** `get_summary`: the dataset with the given id and its records, or a 404. */
  function GetSummary(s: Store, id: nat): (r: Response<DatasetDetail>)
    ensures r.Success? <==> id in DatasetIds(s.datasets)
    ensures r.Success? ==> r.status == 200 && r.body.dataset in s.datasets && r.body.dataset.id == id
                           && r.body.records == RecordsOf(s, id)
    ensures r.Failure? ==> r == Failure(404, "Dataset not found")
  {
    var hits := Filter(s.datasets, (d: Dataset) => d.id == id);
    if |hits| == 0 then Failure(404, "Dataset not found")
    else
      assert hits[0] in hits;
      Success(200, DatasetDetail(hits[0], RecordsOf(s, id)))
  }

  // -------------------------------------------------------------------- auth

  /** Python's `not value` for a request field that may be absent. */
  predicate Blank(field: Option<string>)
  {
    field.None? || field.value == ""
  }

  function UsernameTaken(s: Store, username: string): bool
  {
    exists u :: u in s.users && u.username == username
  }

  /** `request.data.get('email', '')` as `create_user` stores it: an absent
      or null field is the empty text, and the rest is normalised. */
  function StoredEmail(email: Option<string>): string
  {
    NormalizeEmail(if email.Some? then email.value else "")
  }

  /** `register_user`. */
  function RegisterUser(s: Store, username: Option<string>, password: Option<string>, email: Option<string>): (out: Step<UserView>)
    ensures Blank(username) || Blank(password) ==>
              out == Step(Failure(400, "Username and password are required"), s)
    ensures !Blank(username) && !Blank(password) && UsernameTaken(s, username.value) ==>
              out == Step(Failure(400, "Username already exists"), s)
    ensures out.response.Success? <==> !Blank(username) && !Blank(password) && !UsernameTaken(s, username.value)
    ensures out.response.Success? ==>
              && out.response.status == 201
              && out.store.users == s.users + [User(s.nextUserId, username.value, password.value, StoredEmail(email))]
              && out.store.datasets == s.datasets && out.store.records == s.records
              && out.response.body.username == username.value
              && out.response.body.email == StoredEmail(email)
    ensures Valid(s) ==> Valid(out.store)
  {
    if Blank(username) || Blank(password) then Step(Failure(400, "Username and password are required"), s)
    else if UsernameTaken(s, username.value) then Step(Failure(400, "Username already exists"), s)
    else
      var u := User(s.nextUserId, username.value, password.value, StoredEmail(email));
      var r := s.(users := s.users + [u], nextUserId := s.nextUserId + 1);
      RegisterValid(s, u, r);
      Step(Success(201, ViewOf(u)), r)
  }

  /** A successful registration stores and returns the address in its
      normal form: outer spaces gone, the domain lower-cased. */
  lemma RegisterNormalizesEmail(s: Store, username: string, password: string)
    requires !Blank(Some(username)) && !Blank(Some(password)) && !UsernameTaken(s, username)
    ensures var out := RegisterUser(s, Some(username), Some(password), Some(" Bob@EXAMPLE.COM "));
      && out.response.Success?
      && out.response.body.email == "Bob@example.com"
      && out.store.users[|s.users|].email == "Bob@example.com"
  {
    NormalizeEmailExample();
  }

  lemma RegisterValid(s: Store, u: User, r: Store)
    requires u.id == s.nextUserId && !UsernameTaken(s, u.username)
    requires r == s.(users := s.users + [u], nextUserId := s.nextUserId + 1)
    ensures Valid(s) ==> Valid(r)
  {
    if Valid(s) {
      forall i, j | 0 <= i < j < |r.users|
        ensures r.users[i].id != r.users[j].id && r.users[i].username != r.users[j].username
      {
        assert r.users[i] == s.users[i];
        assert s.users[i] in s.users;
        if j < |s.users| {
          assert r.users[j] == s.users[j];
        }
      }
      forall d | d in r.datasets && d.uploadedBy.Some? ensures d.uploadedBy.value in UserIds(r.users) {
        var v :| v in s.users && v.id == d.uploadedBy.value;
        assert v in r.users;
      }
    }
  }

  /** Django's `authenticate` with the model backend: the user with these
      credentials, if there is one. */
  function Authenticate(s: Store, username: string, password: string): (r: Option<User>)
    ensures r.Some? <==> exists u :: u in s.users && u.username == username && u.password == password
    ensures r.Some? ==> r.value in s.users && r.value.username == username && r.value.password == password
  {
    var hits := Filter(s.users, (u: User) => u.username == username && u.password == password);
    if |hits| == 0 then None
    else
      assert hits[0] in hits;
      Some(hits[0])
  }

  /** The response of a request together with the session it leaves. */
  datatype SessionStep<T> = SessionStep(response: Response<T>, session: Option<nat>)

  /** `login_user`. A blank field is refused whatever the store holds, so no
      authentication is attempted; failed credentials leave the session as
      it was. */
  function LoginUser(s: Store, session: Option<nat>, username: Option<string>, password: Option<string>): (out: SessionStep<UserView>)
    ensures Blank(username) || Blank(password) ==>
              out == SessionStep(Failure(400, "Username and password are required"), session)
    ensures out.response.Success? <==>
              !Blank(username) && !Blank(password)
              && exists u :: u in s.users && u.username == username.value && u.password == password.value
    ensures out.response.Success? ==>
              && out.response.status == 200
              && out.session.Some?
              && (exists u :: u in s.users && u.id == out.session.value
                              && u.username == username.value && u.password == password.value
                              && out.response.body == ViewOf(u))
    ensures !Blank(username) && !Blank(password) && out.response.Failure? ==>
              out == SessionStep(Failure(401, "Invalid credentials"), session)
  {
    if Blank(username) || Blank(password) then
      SessionStep(Failure(400, "Username and password are required"), session)
    else
      match Authenticate(s, username.value, password.value)
      case Some(u) => SessionStep(Success(200, ViewOf(u)), Some(u.id))
      case None => SessionStep(Failure(401, "Invalid credentials"), session)
  }

  /** `logout_user`. */
  function LogoutUser(session: Option<nat>): (out: SessionStep<string>)
    ensures out.session.None? && out.response == Success(200, "Logged out successfully")
  {
    SessionStep(Success(200, "Logged out successfully"), None)
  }

  /** `current_user`. */
  function CurrentUser(s: Store, session: Option<nat>): (r: Response<UserView>)
    ensures r.Success? <==> Uploader(s, session).Some?
    ensures r.Success? ==> r.status == 200 && r.body.id == session.value
                           && exists u :: u in s.users && u.id == session.value && r.body == ViewOf(u)
    ensures r.Failure? ==> r == Failure(401, "Not authenticated")
  {
    var hits := Filter(s.users, (u: User) => Some(u.id) == session);
    if |hits| > 0 then
      assert hits[0] in hits;
      Success(200, ViewOf(hits[0]))
    else Failure(401, "Not authenticated")
  }
}

=== FILE: wrappers.dfy ===
/** The absent-or-present value the Python code expresses with `None`. */
module Wrappers {

  datatype Option<+T> = None | Some(value: T)
}
